=== FILE: README.md ===
# Infection mode of the AirMash game server, modelled in Dafny

This project models the decision logic behind the server's Infection mode (game type 4). Two teams play: the survivors (BLUE, team 1) and the infected (RED, team 2). A survivor who is killed is converted to the infected team. When one team has no living player, the match ends.

Five handlers are modelled as pure step functions. Each takes immutable player records and returns the new records plus the list of events the handler emits, in emission order:

- **Hit resolution** (`Hit`). The handler:
  - ignores hits while no match is running;
  - always breaks the victim's stealth;
  - tells apart three damage sources: the firewall (projectile 0), an infected player's melee hit (an ownerless mob in this mode) and a ranged projectile;
  - applies the shield to melee and ranged hits only;
  - doubles repel damage;
  - normalises health against the ship's full health and clamps a lethal hit to the health floor;
  - keeps the 30-entry kill-assist buffer;
  - credits damage statistics to the projectile's owner.
- **Match lifecycle** (`Matches`). The once-per-second countdown requests a team shuffle at tick 5, announces the last seconds and starts the match at the configured length. The kill handler ends the match when a team has no living player; otherwise it schedules the conversion of a killed survivor. The conversion itself is modelled as it takes effect.
- **Team assignment, reshuffle and spawn** (`InfPlayers`):
  - the team chosen on join;
  - the spawn position inside the team's zone;
  - the reshuffle, which works in these steps:
    - it scores every human from 1 to 9 from statistics aggregated over all players;
    - it sorts the playing humans by descending score;
    - it splits them greedily between a randomly chosen first team and the other team;
    - it deals spectators and then bots out in strict alternation;
    - it re-teams only the entities whose team changes, and announces a summary.
- **Ship-type change** (`ShipType`). The new ship, its collision circles and energy regeneration, with a flat rate for the infected. A repel is removed when the old ship was a Goliath and added when the new one is.
- **Public server chat** (`ChatServer`). The text is cut into consecutive 255-character packets, all sent to the same recipients.

Shared definitions:
- `Players` holds the player record and the player list, ordered by insertion like the server's map.
- `Events` holds the emitted events.
- `Text` renders integers inside messages.
- `Scenarios` relates the combat handler to the match handler.

JavaScript numbers used for health, damage and ratios become exact `real`s. Counters become `int` or `nat`. The ship, upgrade and projectile tables are uninterpreted function-typed parameters. The current time, the random choices and the development-mode switches are parameters.

The model follows the code as written, including these quirks:

- On the ranged and firewall path the hit handler emits no kill, even on a lethal hit. Only the melee path emits one.
- A shielded victim still loses its stealth, because stealth is broken before the shield is checked. A shielded hit is therefore not free of effects.
- On the ranged and firewall path the floor is compared with the absolute health rather than the normalised one. A non-lethal hit can therefore store a health below the floor (`Hit.NonLethalCanEndBelowFloor`).
- The melee kill event names the aggressor first, but the kill handler reads its first argument as the victim (`Scenarios.MeleeKillConvertsNobody`).
- The kill handler never looks at whether a match is running, so ending a match is not idempotent (`Matches.KillIgnoresActivity`). Living players are counted over the whole list, and a simultaneous elimination gives the win to BLUE.
- The countdown text computes the seconds left against a fixed 30, whatever the configured length (`Matches.CountdownTextFacts`).
- The join-time bot-ratio choice is always overwritten by the blue-versus-red comparison (`InfPlayers.BotRatioIsOverwritten`).
- The greedy split caps the human difference for the second team only. Scores 9, 8, 8 and seven 1s give 8 humans against 2 (`InfPlayers.GreedyExamples`).
- A scheduled conversion does not re-check the match when it fires (`Matches.Convert`).

## Model

| member | source | states |
|---|---|---|
| Hit.OnHitPlayer | src/server/maintenance/players/hit.ts:23-33 | While no match is running, a hit leaves every player unchanged and emits nothing; an unknown victim also has no effect; otherwise the hit is resolved on the victim's record |
| Hit.HitVictim | src/server/maintenance/players/hit.ts:36-164 | The stealth events always come first. Projectile 0 is the firewall, applied whether or not the shield is up and credited to attacker 0. An unknown projectile stops after the stealth break. An ownerless projectile is a melee hit in the infection mode and stops after the stealth break in any other mode. An owned projectile is a ranged hit unless the shield is up, in which case the victim only loses stealth |
| Hit.BreakStealth | src/server/maintenance/players/hit.ts:36-42 | Stealth is always off afterwards; a stealthed victim gets the hit time as last stealth time and exactly the stealth and player-update broadcasts; an unstealthed victim is returned unchanged with no events |
| Hit.MeleeHit | src/server/maintenance/players/hit.ts:52-82 | An unknown aggressor or a raised shield changes nothing more. Otherwise the melee damage is applied. The events are the stealth events followed, exactly when the aggressor is known, there is no shield and the hit is lethal, by the kill (aggressor first, flagged melee) and the kill broadcast, and nothing else |
| Hit.MeleeVictim | src/server/maintenance/players/hit.ts:63-76 | After a melee hit the normalised health is never below the floor and equals it on a lethal hit; otherwise full health times the new health is the old absolute health minus the missile damage. Only the health, the hit time and the received-hit count change |
| Hit.FullHealth | src/server/maintenance/players/hit.ts:129-131 | With positive table entries for the victim's ship and defense level, full health is positive |
| Hit.RangedDamage | src/server/maintenance/players/hit.ts:91-98 | Ranged damage is the projectile's base damage, doubled exactly when the projectile was repelled |
| Hit.Round | src/server/maintenance/players/hit.ts:105-107 | The rounded value lies within one half of its argument, halves rounding up |
| Hit.CreditOwner | src/server/maintenance/players/hit.ts:103-116 | The connected owner gains the rounded undoubled base damage times 100 and one hit; the same amount and one hit count against bots only when the victim is a bot; no other field changes |
| Hit.CountRangedHit | src/server/maintenance/players/hit.ts:88-119 | Before damage, a ranged hit times and counts the hit on the victim and adds one hit by a bot when the owner is a bot. A self-hit credits the victim as owner with the rounded base damage times 100 and one hit, also against bots when the victim is a bot; otherwise these counters stay. Nothing else changes |
| Hit.RangedVictim | src/server/maintenance/players/hit.ts:88-164 | A ranged victim ends with the health and assist buffer of a hit by the (possibly doubled) damage, credited to the owner, with the hit counted and timed. The self-hit credit is as for the counters. Nothing else changes |
| Hit.RangedHit | src/server/maintenance/players/hit.ts:84-121 | A ranged hit emits no event of its own, not even on a lethal hit; the owner is credited when present in the list; a self-hit credits the victim itself |
| Hit.ApplyDamage | src/server/maintenance/players/hit.ts:129-164 | Firewall and ranged damage change only the victim's health and assist buffer, as described by the health and tracking rules |
| Hit.HealthAfter | src/server/maintenance/players/hit.ts:133-164 | A hit whose remaining absolute health is at or below the floor leaves exactly the floor; otherwise the remaining absolute health divided by full health |
| Hit.Track | src/server/maintenance/players/hit.ts:135-144 | The assist buffer gains the (attacker, share) pair at its end and drops its oldest pair exactly when it would exceed 30 entries |
| Hit.TrackingAfter | src/server/maintenance/players/hit.ts:135-153 | Without kill assists the buffer is unchanged. With them, a non-lethal hit tracks exactly the pair (attacker, damage over full health). A lethal hit tracks the same pair but tops the newest share up by the remaining absolute health over full health |
| Hit.StealthAlwaysBroken | src/server/maintenance/players/hit.ts:36-61 | Every hit in a running match leaves a known victim unstealthed, with the hit time as last stealth time if it was stealthed, even when the shield blocks the damage |
| Hit.HealthNeverIncreases | src/server/maintenance/players/hit.ts:133-164 | With non-negative damage, positive full health and a health at or above the floor, firewall and ranged damage never raise the health |
| Hit.NonLethalCanEndBelowFloor | src/server/maintenance/players/hit.ts:133-164 | A concrete non-lethal hit on a sturdy ship stores a normalised health below the floor |
| Hit.TrackKeepsPairsWithinLimit | src/server/maintenance/players/hit.ts:135-144 | An assist buffer of whole pairs within 30 entries stays so after any tracked hit |
| Hit.LethalShareIsPreHitHealth | src/server/maintenance/players/hit.ts:146-153 | After a lethal tracked hit the newest buffer entry equals the victim's normalised health before the hit |
| Matches.Initial | src/modes/inf/manifest.ts:74-76 | The server starts at match 0, inactive, with the countdown at 0 |
| Matches.OnSecondTick | src/modes/inf/maintenance/matches.ts:109-179 | An active match freezes everything; otherwise the countdown rises by one; the shuffle is requested exactly on its milestone and the match starts exactly on the start tick; each other milestone emits its single announcement and no milestone emits nothing |
| Matches.StartMatch | src/modes/inf/maintenance/matches.ts:143-177 | At start the match number rises by one, the match becomes active with the current start time and the countdown returns to 0; every player is reset and gets one respawn; the start is announced and no shuffle is requested |
| Matches.ResetAll | src/modes/inf/maintenance/matches.ts:159-172 | Every player, in list order, is marked for respawn with both active-playing times and the match kills at 0, with exactly one respawn request per player |
| Matches.ShuffleTickWins | src/modes/inf/maintenance/matches.ts:109-125 | Tick 5 always announces the seconds left and requests the shuffle, and never starts the match, even when the countdown length makes it also meet the ten-second, final-countdown or start guard |
| Matches.DevCountdownSkipsTickFive | src/modes/inf/maintenance/matches.ts:113-136 | With the development length of 10, tick 5 lies in the final five-second window, yet its countdown message is not sent; the shuffle announcement saying 5 seconds goes out instead |
| Matches.CountdownTextFacts | src/modes/inf/maintenance/matches.ts:129-135 | The countdown says "a second" exactly when one second is left; with the development length of 10 it announces 24 seconds at tick 6 |
| Matches.CountdownPrefix | src/modes/inf/maintenance/matches.ts:109-142 | From an idle state at 0 with the standard length, the first k < 30 ticks only count up, request the shuffle on tick 5 and no other, and never start the match |
| Matches.StartAfterThirtyTicks | src/modes/inf/maintenance/matches.ts:143-172 | After exactly 30 ticks from an idle state at 0 the match is active, counted once more, started now, with the countdown back at 0 and every player reset |
| Matches.ShuffleOnceBeforeStart | src/modes/inf/maintenance/matches.ts:109-177 | Over those 30 ticks the shuffle is requested on tick 5 only and the match starts on tick 30 only |
| Matches.LastTickStarts | src/modes/inf/maintenance/matches.ts:143-177 | The 30th tick starts the match without requesting a shuffle |
| Matches.CountAlive | src/modes/inf/maintenance/matches.ts:58-59 | The count of living players of a team is zero exactly when no player of the team is alive, and never exceeds the list |
| Matches.OnPlayerKill | src/modes/inf/maintenance/matches.ts:53-107 | In the infection mode an unknown victim has no effect. Otherwise, when either team has no living player, the match becomes inactive with RED winning exactly when infected remain, its number and start kept, and no conversion. The winner is announced as a server message and a public chat line. With a known victim and enemy these are followed by both custom messages and the match end. An unknown victim stops after the two announcements, and an unknown enemy stops after the victim's custom message. When no team is eliminated nothing is emitted, the match is unchanged, and exactly the victim is scheduled for conversion iff the mode is infection, the victim is BLUE and connected |
| Matches.Ended | src/modes/inf/maintenance/matches.ts:69-70 | An ended match is inactive and won by RED exactly when infected remain, and keeps its number, start time and countdown |
| Matches.KillIgnoresActivity | src/modes/inf/maintenance/matches.ts:53-82 | A kill gives the same events, conversion and winner whether or not a match is running, so an ended match ends again |
| Matches.Convert | src/modes/inf/maintenance/matches.ts:92-104 | The fired conversion puts the victim on RED and marks it for respawn. It emits the conversion events with the text "<enemy name> has infected <victim name>!". An unknown victim or enemy has no effect |
| Matches.ConversionEvents | src/modes/inf/maintenance/matches.ts:96-103 | A conversion emits five events: the infection message first, then the team update to RED, the re-team naming only the victim, its respawn and the victim's custom message |
| Matches.ConversionEffect | src/modes/inf/maintenance/matches.ts:97-98 | The conversion changes the victim's team to RED and sets its respawn flag and changes no other field and no other player |
| InfPlayers.BotTeamCounts | src/modes/inf/maintenance/players.ts:43-52 | The blue count is the number of BLUE bots in the list, and blue and red together count every bot once, so every non-BLUE bot counts as red |
| InfPlayers.BotRatioTeam | src/modes/inf/maintenance/players.ts:58-62 | The ratio choice is RED exactly when there is a bot and red holds less than 33 percent of the bots; with no bots it is BLUE |
| InfPlayers.OnAssignPlayerTeam | src/modes/inf/maintenance/players.ts:39-68 | Only the team changes; it is RED exactly when the counted blue total exceeds the red total, so ties give BLUE |
| InfPlayers.BotRatioIsOverwritten | src/modes/inf/maintenance/players.ts:58-65 | With two BLUE bots and one RED bot the ratio choice is BLUE, yet the joining bot goes to RED |
| InfPlayers.OnAssignPlayerSpawnPosition | src/modes/inf/maintenance/players.ts:70-90 | Only the position changes; for a bot, a player whose last life did not end in a kill, or with extra spawns off, it lies in the square of the team's zone (non-BLUE teams use the RED zone); otherwise it is the origin |
| InfPlayers.SpawnCoversZone | src/modes/inf/maintenance/players.ts:88-89 | Every point of the zone's square is reachable by some pair of offsets |
| InfPlayers.Accumulate | src/modes/inf/maintenance/players.ts:117-156 | Each per-statistic player count is at most the number of players, and total deaths are zero exactly when nobody died |
| InfPlayers.AccumulateAppend | src/modes/inf/maintenance/players.ts:117-156 | The totals of two concatenated lists are the field-wise sums of their totals, so the totals add up every player's contribution |
| InfPlayers.AccumulateStep | src/modes/inf/maintenance/players.ts:125-153 | Adding a player adds its value to a statistic's total and 1 to the statistic's player count exactly when the value is positive |
| InfPlayers.AccumulateZero | src/modes/inf/maintenance/players.ts:125-153 | For each of the six counted statistics, the total is zero exactly when no player is counted for it, and exactly when every player's value is zero |
| InfPlayers.FlooringTouchesOnlyEmpty | src/modes/inf/maintenance/players.ts:158-184 | Raising a zero player count to 1 happens only for a statistic whose total is zero, and raising deaths only when nobody died |
| InfPlayers.FloorDenominators | src/modes/inf/maintenance/players.ts:158-184 | Deaths and all seven per-statistic player counts are at least 1 afterwards. Each count that was already non-zero is kept, and the sums are unchanged |
| InfPlayers.Score | src/modes/inf/maintenance/players.ts:196-229 | With floored denominators every fairness score lies in [1, 9] |
| InfPlayers.IdleScore | src/modes/inf/maintenance/players.ts:196-229 | In a population that has done nothing every human scores 3: kill/death ratio and damage meet the mean, all other statistics are skipped |
| InfPlayers.Rate | src/modes/inf/maintenance/players.ts:189-244 | Each human gets one entry with its id, score and current team, in list order, with a score in [1, 9] |
| InfPlayers.HumansMembers | src/modes/inf/maintenance/players.ts:189-194 | A player is in the playing (or spectating) human list exactly when it is in the player list, is not a bot and has that spectate flag |
| InfPlayers.BotsMembers | src/modes/inf/maintenance/players.ts:316-318 | A player is in the bot list exactly when it is in the player list and is a bot |
| InfPlayers.PartitionIds | src/modes/inf/maintenance/players.ts:189-244 | Playing humans, spectating humans and bots together hold the ids of the whole player list, each as often as it occurs |
| InfPlayers.Insert | src/modes/inf/maintenance/players.ts:246-247 | Inserting into a descending list keeps it descending and adds exactly the new entry |
| InfPlayers.SortByScore | src/modes/inf/maintenance/players.ts:246-247 | The result is sorted by descending score and is a permutation of the input |
| InfPlayers.SortIds | src/modes/inf/maintenance/players.ts:246-247 | Sorting keeps exactly the ids it is given |
| InfPlayers.SortKeepsScores | src/modes/inf/maintenance/players.ts:246-247 | Sorting keeps every score within [1, 9] |
| InfPlayers.InsertIsStable | src/modes/inf/maintenance/players.ts:246-247 | Inserting an entry into a descending list places it before every entry of equal score and leaves their order alone; the sort inserts each head into its sorted tail, so this keeps list order among equal scores |
| InfPlayers.SortIsStable | src/modes/inf/maintenance/players.ts:246-247 | For every score, the entries with that score keep their relative order through the sort |
| InfPlayers.Lists | src/modes/inf/maintenance/players.ts:92-247 | The playing list holds exactly the rated non-spectating humans and the spectating list the rated spectators, each sorted descending with equal scores in list order and scores in [1, 9]. The bot list is the bots in list order with score 0. Together the three lists hold exactly the players' ids |
| InfPlayers.EntriesComeFromPlayers | src/modes/inf/maintenance/players.ts:186-247 | Every playing entry is a non-bot, non-spectating player with its own score and current team; every spectating entry likewise a non-bot spectator; every bot entry a bot with score 0 and its current team |
| InfPlayers.EntriesCoverPlayers | src/modes/inf/maintenance/players.ts:186-244 | Every player is placed exactly once among playing humans, spectators and bots |
| InfPlayers.Greedy | src/modes/inf/maintenance/players.ts:257-285 | Every playing human goes to one of the two teams, and the per-team counts match the assignment. Humans and scores are split without loss. The second team never has more than maxDiff + 1 humans beyond the first |
| InfPlayers.GreedyRule | src/modes/inf/maintenance/players.ts:263-273 | The i-th playing human joins the first team exactly when, over the humans before it, the first team's score does not exceed the second's or it has fewer than the second's humans minus the allowance |
| InfPlayers.GreedyTallyStep | src/modes/inf/maintenance/players.ts:268-280 | The i-th human adds one human and its score to the side the rule picks, and nothing to the other side |
| InfPlayers.GreedyTallyMatches | src/modes/inf/maintenance/players.ts:257-285 | The greedy pass ends with the tally of the step-by-step rule |
| InfPlayers.Join | src/modes/inf/maintenance/players.ts:268-280 | Joining adds one human and the entry's score in total, all on the chosen side |
| InfPlayers.LowScoresFillFirstTeam | src/modes/inf/maintenance/players.ts:268-280 | Humans scoring 1 all join the first team while its score trails, however many humans it already has |
| InfPlayers.GreedyExamples | src/modes/inf/maintenance/players.ts:260-285 | Scores 3, 3, 1, 1 split two against two with 4 points each; scores 9, 8, 8 and seven 1s split eight humans against two |
| InfPlayers.Alternate | src/modes/inf/maintenance/players.ts:296-333 | An alternation gives the starting team to even positions and the other team to odd ones |
| InfPlayers.AlternateCounts | src/modes/inf/maintenance/players.ts:296-333 | In an alternation the starting team gets the extra place when the count is odd |
| InfPlayers.Alternation | src/modes/inf/maintenance/players.ts:287-333 | Every spectator and bot gets BLUE or RED. Spectators start with the first team exactly when it has no more humans than the second. Blue and red bots differ by at most one |
| InfPlayers.AlternateSplit | src/modes/inf/maintenance/players.ts:296-333 | An alternation of n places followed by one of m places, started on the team the first one would give next, is one alternation of n + m places |
| InfPlayers.AlternationIsStrict | src/modes/inf/maintenance/players.ts:287-333 | Spectators and then bots form one strict alternation: the bots continue where the spectators stopped |
| InfPlayers.Changed | src/modes/inf/maintenance/players.ts:282-330 | An id is in the re-team list exactly when an entry with it is given a team different from its current one |
| InfPlayers.ChangedIdsFromEntries | src/modes/inf/maintenance/players.ts:282-330 | The re-team list names each id at most as often as the entries carry it |
| InfPlayers.ChangedUpdates | src/modes/inf/maintenance/players.ts:301-330 | Spectators and bots get a team update exactly when their team changes |
| InfPlayers.ChangedFrom | src/modes/inf/maintenance/players.ts:282-330 | The positions whose team changes, strictly increasing, and every such position is included |
| InfPlayers.ChangedInOrder | src/modes/inf/maintenance/players.ts:282-330 | The k-th re-team id and the k-th team-update event belong to the k-th entry whose team changes, so both follow list order and carry each changed entry exactly once |
| InfPlayers.Assign | src/modes/inf/maintenance/players.ts:249-333 | Every entity gets BLUE or RED; the greedy tally splits all playing humans and their total score with the second team held to at most n % 2 + 1 extra humans; the spectators' start and the bots' balance follow the alternation |
| InfPlayers.AssignFollowsGreedy | src/modes/inf/maintenance/players.ts:257-285 | The playing humans' teams and the tally are those of the greedy pass from an empty tally, with the playing count's parity as allowance |
| InfPlayers.AssignAlternates | src/modes/inf/maintenance/players.ts:287-333 | The spectator and bot teams chosen by the assignment form one strict alternation from the team with fewer humans after the greedy pass |
| InfPlayers.Place | src/modes/inf/maintenance/players.ts:249-362 | The placement keeps the lists and gives every entity BLUE or RED. The humans' teams and tally are the greedy pass's. The announced human counts and scores follow the first team's colour. The announced bot counts are the blue and red bot teams, add up to the bots and differ by at most one. The re-team list is exactly the entities whose team changes. The events are the reshuffle events of the result |
| InfPlayers.PlaceAlternates | src/modes/inf/maintenance/players.ts:287-333 | The placed spectators and bots follow one strict alternation from the team with fewer humans |
| InfPlayers.ReshuffleEvents | src/modes/inf/maintenance/players.ts:257-362 | The events are a team update for each playing human in order, then a team update for each spectator and bot whose team changes, then the re-team broadcast, the reshuffle event and the summary chat line |
| InfPlayers.SummaryTextExample | src/modes/inf/maintenance/players.ts:355-362 | For 2 vs 1 humans and 1 vs 2 bots with human scores 5 and 3, the summary reports totals 3 vs 3 and balance scores 6 vs 5: each team's bot count is added to its score |
| InfPlayers.OnShufflePlayers | src/modes/inf/maintenance/players.ts:92-362 | An empty player list emits nothing. Otherwise the lists are those of the players, with rated humans split by spectate flag, sorted stably and descending, and bots kept in list order. The result is their placement from the given first team, and the re-team list is exactly the entities whose team changes |
| InfPlayers.ReteamAtMostOnce | src/modes/inf/maintenance/players.ts:282-330 | With distinct player ids the re-team list names every entity at most once |
| InfPlayers.ReteamWithinIds | src/modes/inf/maintenance/players.ts:264-330 | The re-team list of a reshuffle names only ids of the player list, each at most as often as the list holds it |
| ShipType.Regen | src/server/maintenance/players/ship-type.ts:17-27 | An infected player in the infection mode regenerates at exactly 0.15; every other player at the ship's rate times the energy-upgrade factor |
| ShipType.OnSetPlayerShipType | src/server/maintenance/players/ship-type.ts:15-36 | Only ship type, collision circles and regeneration change. A repel delete is emitted iff the old ship was a Goliath and a repel add iff the new one is. Nothing else is emitted, and the delete comes first |
| ShipType.ChangeBackRestores | src/server/maintenance/players/ship-type.ts:15-36 | Changing ship and back restores a consistent player exactly, with repel adds and deletes balanced over the round trip |
| ShipType.ReselectIsIdempotent | src/server/maintenance/players/ship-type.ts:20-27 | Selecting the same ship again leaves the player unchanged |
| ChatServer.Recipients | src/server/responses/broadcast/chat-server-public.ts:27-30 | Recipients are the human connections, followed by the bot connections only in development mode |
| ChatServer.OnChatServerPublic | src/server/responses/broadcast/chat-server-public.ts:24-47 | The text goes out in ceil(length / 255) packets whose texts joined in order give back the text. Every packet is non-empty and at most 255 long, and all but the last are exactly 255. Each packet comes from the server player and goes to the same recipients. Empty text sends nothing |
| Scenarios.MeleeKillConvertsNobody | src/server/maintenance/players/hit.ts:78 | An infected rammer's melee kill of a connected survivor, passed on in the melee event's order, converts nobody; the reverse order converts the survivor |
| Text.NatToString | src/modes/inf/maintenance/players.ts:357-361 | A non-empty string of decimal digits that denotes the number, with a leading '0' only for zero |
| Text.IntToString | src/modes/inf/maintenance/matches.ts:116 | A leading '-' exactly for negatives; the rest is the shortest decimal digits of the magnitude and denotes it |

## Left out

- Timers: the conversion delay and the respawn channel delay are not modelled. The kill handler returns the conversion it schedules, and `Matches.Convert` is its effect when it fires. The connection's pending-respawn flag is not modelled.
- Matches.Convert: it reads the player list as it is when the conversion fires, whereas the source captured the victim and the players array at kill time.
- `announceMatchState` (the welcome whisper for a newly connected player) is not modelled, because it only schedules a message and a mob registration.
- Logging calls are not modelled.
- Event-bus wiring and system registration are not modelled. Events are a returned list that carries player ids rather than player objects.
- `Date.now`, the random first team and the random spawn offsets are parameters. The offsets are bounded by the spawn radius.
- The development-mode switch and the countdown length are parameters: `isDev` for the chat and `timeoutMax` for the clock.
- Connection look-ups:
  - Connection sets are parameters: the per-team connection counts and the set of players with an open main connection.
  - Whether a projectile's owner is connected is modelled as the owner being in the player list.
  - The bot id list is modelled as the bots of the player list, in list order.
- The ship, upgrade and projectile tables and the health floor are uninterpreted parameters. Only positivity of the victim's entries is required, for the division.
- IEEE-754 floating point is modelled as exact rational arithmetic, so rounding error in health, ratios and means is not modelled.
- Unknown ship types, for which the source would throw on the table look-up, are not modelled. The tables are total functions.
- Crash paths (an unknown projectile, an ownerless projectile outside the infection mode, an unknown victim or enemy at match end) are modelled as the handler stopping there, keeping the effects made before the throw.
- Hit.HitVictim: the stealth and player-update broadcasts are queued for later delivery, while the kill events are emitted at once. The model puts all of them in one list in call order, so it does not state when a queued event is delivered relative to an emitted one.
- Packet assembly for the player-hit broadcast (`src/server/responses/broadcast/player-hit.ts`) is not part of this model.
- The file-system helper `findParent` in `src/utils.ts` is not part of this model.
- Characters of the chat text stand for the UTF-16 code units JavaScript slices.
- The reset of every player at match start is stated through `Matches.ResetAll`. Its per-player helper carries no property of its own.
- Matches.CountAlive: every modelled player has an alive status, so the throw the source would raise when reading the missing status of a RED player is not modelled.
- Team initialisation at system start (`initTeams`) only creates empty connection sets; they are parameters here.

=== FILE: chat_server.dfy ===
/** Public chat messages from the server: the text is cut into packets of
    at most 255 characters, all sent to the same recipients. */
module ChatServer {

  /** Longest text one chat packet carries. */
  const CHUNK := 255

  /** A public chat packet from `id` to the connections in `recipients`. */
  datatype Packet = Packet(id: int, text: string, recipients: seq<int>)

  /** The human connections, then the bot connections in development. */
  function Recipients(humanConnections: seq<int>, botConnections: seq<int>, isDev: bool): (r: seq<int>)
    ensures isDev ==> r == humanConnections + botConnections
    ensures !isDev ==> r == humanConnections
  {
    if isDev then humanConnections + botConnections else humanConnections
  }

  /** The texts of the packets, joined. */
  function Joined(packets: seq<Packet>): string {
    if |packets| == 0 then "" else packets[0].text + Joined(packets[1..])
  }

  lemma {:induction false} JoinedAppend(packets: seq<Packet>, p: Packet)
    ensures Joined(packets + [p]) == Joined(packets) + p.text
  {
    if |packets| == 0 {
      assert packets + [p] == [p];
    } else {
      JoinedAppend(packets[1..], p);
      assert (packets + [p])[1..] == packets[1..] + [p];
    }
  }

  /** Sends `text` as consecutive slices of 255 characters (the last one
      shorter), in order, each from the server player to every recipient.
      An empty text sends nothing. */
  method OnChatServerPublic(text: string, serverPlayerId: int, humanConnections: seq<int>,
                            botConnections: seq<int>, isDev: bool)
    returns (packets: seq<Packet>)
    ensures |packets| == (|text| + CHUNK - 1) / CHUNK
    ensures Joined(packets) == text
    ensures forall i :: 0 <= i < |packets| ==> 0 < |packets[i].text| <= CHUNK
    ensures forall i :: 0 <= i < |packets| - 1 ==> |packets[i].text| == CHUNK
    ensures forall i :: 0 <= i < |packets| ==>
              packets[i].id == serverPlayerId
              && packets[i].recipients == Recipients(humanConnections, botConnections, isDev)
  {
    var recipients := humanConnections;
    if isDev {
      recipients := recipients + botConnections;
    }
    packets := [];
    var offset := 0;
    while offset < |text|
      invariant offset == CHUNK * |packets|
      invariant |packets| == (if offset < |text| then offset else |text| + CHUNK - 1) / CHUNK
      invariant offset <= |text| ==> Joined(packets) == text[..offset]
      invariant offset > |text| ==> Joined(packets) == text && offset < |text| + CHUNK
      invariant forall i :: 0 <= i < |packets| ==> 0 < |packets[i].text| <= CHUNK
      invariant forall i :: 0 <= i < |packets| - 1 ==> |packets[i].text| == CHUNK
      invariant offset < |text| ==> forall i :: 0 <= i < |packets| ==> |packets[i].text| == CHUNK
      invariant forall i :: 0 <= i < |packets| ==>
                  packets[i].id == serverPlayerId
                  && packets[i].recipients == Recipients(humanConnections, botConnections, isDev)
      decreases |text| - offset
    {
      var end := if offset + CHUNK < |text| then offset + CHUNK else |text|;
      var p := Packet(serverPlayerId, text[offset..end], recipients);
      JoinedAppend(packets, p);
      assert text[..offset] + text[offset..end] == text[..end];
      packets := packets + [p];
      offset := offset + CHUNK;
    }
    if offset <= |text| {
      assert text[..offset] == text;
    }
  }
}

=== FILE: events.dfy ===
/** The semantic events the modelled handlers emit, in emission order.
    Each constructor stands for one event name of the server's event bus;
    its arguments are the arguments the handler passes. */
module Events {
  import opened Players

  /** Severity of a server message banner. */
  datatype MessageType = Info | Alert

  datatype Event =
    | BroadcastStealth(id: PlayerId)                          // delayed
    | BroadcastPlayerUpdate(id: PlayerId)                     // delayed
    | PlayersKill(first: PlayerId, second: PlayerId, melee: bool)
    | BroadcastPlayerKill(first: PlayerId, second: PlayerId)
    | ServerMessage(text: string, kind: MessageType, durationMs: int)
    | ChatServerPublic(text: string)
    | ServerCustom(id: PlayerId, value: int)
    | PlayersRespawn(id: PlayerId)
    | PlayersUpdateTeam(id: PlayerId, team: TeamId)
    | PlayerReteam(ids: seq<PlayerId>)
    | ShufflePlayers
    | TeamsReshuffled
    | MatchStart
    | MatchEnd
    | ScoreboardForceUpdate
    | RepelAdd(id: PlayerId)
    | RepelDelete(id: PlayerId)
}

=== FILE: hit.dfy ===
/** Hit resolution: what one hit does to its victim (and to the owner of the
    projectile), modelled as a step function over the player list.

    Three damage sources are told apart by the projectile id and its owner:
    the firewall (id 0), an infected player's melee hit (a mob without an
    owner, infection mode only) and a ranged projectile. */
module Hit {
  import opened Players
  import opened Events

  /** The constant tables the handler reads, left uninterpreted. */
  datatype CombatTables = CombatTables(
    shipDamageFactor: int -> real,   // damage factor per ship type
    defenseFactor: int -> real,      // health factor per defense upgrade level
    projectileDamage: int -> real,   // base damage per projectile type
    copterMissile: int,              // projectile type whose damage a melee hit deals
    minHealth: real)                 // the health floor of a dead player

  /** The projectile looked up by id. An infected player is registered as a
      mob of its own id and has no owner. */
  datatype Mob = Mob(owner: Option<PlayerId>, mobType: int, doubled: bool)

  datatype HitConfig = HitConfig(gameType: int, killAssists: bool)

  datatype HitResult = HitResult(players: Roster, events: seq<Event>)

  /** Length above which the kill-assist buffer drops its oldest pair. */
  const TRACKING_LIMIT := 30

  /** The table entries for the victim are positive, so full health is. */
  predicate HasHealthTables(t: CombatTables, p: Player) {
    t.shipDamageFactor(p.ship) > 0.0 && t.defenseFactor(p.upgrades.defense) > 0.0
  }

  predicate VictimHasHealthTables(t: CombatTables, players: Roster, victimId: PlayerId) {
    var v := Lookup(players, victimId);
    v.Some? ==> HasHealthTables(t, v.value)
  }

  /** Absolute health of a full-health victim, relative to the sturdiest ship. */
  function FullHealth(t: CombatTables, p: Player): (full: real)
    requires HasHealthTables(t, p)
    ensures full > 0.0
  {
    var a := 1.0 / t.shipDamageFactor(p.ship);
    var b := t.defenseFactor(p.upgrades.defense);
    assert a > 0.0;
    a * b
  }

  /** JavaScript's Math.round: the nearest integer, halves rounded up. */
  function Round(x: real): (n: int)
    ensures n as real - 0.5 <= x < n as real + 0.5
  {
    (x + 0.5).Floor
  }

  /** Clears stealth; when it was on, records the time and queues the
      stealth and player-update broadcasts. */
  function BreakStealth(v: Player, now: int): (r: (Player, seq<Event>))
    ensures !r.0.stealthed && r.0.id == v.id && r.0.health == v.health && r.0.shield == v.shield
    ensures v.stealthed ==> r.0.times.lastStealth == now
    ensures v.stealthed <==> r.1 == [BroadcastStealth(v.id), BroadcastPlayerUpdate(v.id)]
    ensures !v.stealthed <==> r == (v, [])
    ensures r.0 == v.(stealthed := false, times := v.times.(lastStealth := r.0.times.lastStealth))
  {
    if v.stealthed then
      (v.(stealthed := false, times := v.times.(lastStealth := now)),
       [BroadcastStealth(v.id), BroadcastPlayerUpdate(v.id)])
    else (v, [])
  }

  /** The time of the hit and one more hit received. */
  function ReceiveHit(v: Player, now: int): Player {
    v.(times := v.times.(lastHit := now),
       damage := v.damage.(hitsReceived := v.damage.hitsReceived + 1))
  }

  /** Appends one (attacker, share) pair to the kill-assist buffer and drops
      the oldest pair when the buffer grows past its limit. */
  function Track(buf: seq<real>, who: real, share: real): (r: seq<real>)
    ensures |r| >= 2 && r[|r| - 2] == who && r[|r| - 1] == share
    ensures |r| == if |buf| + 2 > TRACKING_LIMIT then |buf| else |buf| + 2
    ensures r == (buf + [who, share])[|buf| + 2 - |r|..]
  {
    var pushed := buf + [who, share];
    if |pushed| > TRACKING_LIMIT then pushed[2..] else pushed
  }

  /** Whether firewall or ranged damage `dmg` is lethal: the ABSOLUTE
      remaining health is compared with the floor. */
  predicate Lethal(full: real, before: real, dmg: real, minHealth: real) {
    full * before - dmg <= minHealth
  }

  /** Normalised health after firewall or ranged damage: the floor when
      lethal, otherwise the remaining absolute health divided by full health. */
  function HealthAfter(full: real, before: real, dmg: real, minHealth: real): (h: real)
    requires full > 0.0
    ensures Lethal(full, before, dmg, minHealth) ==> h == minHealth
    ensures !Lethal(full, before, dmg, minHealth) ==> h * full == full * before - dmg
  {
    var abs := full * before - dmg;
    if abs <= minHealth then minHealth else abs / full
  }

  /** Kill-assist buffer after firewall or ranged damage: with assists on,
      the pair (attacker, dmg / full) is tracked and, on a lethal hit, the
      newest entry is topped up by the (non-positive) remaining health over
      full health. */
  function TrackingAfter(buf: seq<real>, full: real, before: real, dmg: real, minHealth: real,
                         aggressorId: PlayerId, killAssists: bool): (r: seq<real>)
    requires full > 0.0
    ensures !killAssists ==> r == buf
    ensures killAssists ==> |r| == |Track(buf, aggressorId as real, dmg / full)|
                            && r[..|r| - 1] == Track(buf, aggressorId as real, dmg / full)[..|r| - 1]
                            && r[|r| - 2] == aggressorId as real
    ensures killAssists && !Lethal(full, before, dmg, minHealth) ==> r == Track(buf, aggressorId as real, dmg / full)
    ensures killAssists && Lethal(full, before, dmg, minHealth)
            ==> r[|r| - 1] == dmg / full + (full * before - dmg) / full
  {
    if !killAssists then buf
    else
      var tracked := Track(buf, aggressorId as real, dmg / full);
      if Lethal(full, before, dmg, minHealth) then
        tracked[|tracked| - 1 := tracked[|tracked| - 1] + (full * before - dmg) / full]
      else tracked
  }

  /** Firewall and ranged damage applied to victim `v`; nothing else changes. */
  function ApplyDamage(t: CombatTables, v: Player, dmg: real, aggressorId: PlayerId, killAssists: bool): (r: Player)
    requires HasHealthTables(t, v)
    ensures r.health == HealthAfter(FullHealth(t, v), v.health, dmg, t.minHealth)
    ensures r.damage.takenTracking
            == TrackingAfter(v.damage.takenTracking, FullHealth(t, v), v.health, dmg, t.minHealth, aggressorId, killAssists)
    ensures r == v.(health := r.health, damage := v.damage.(takenTracking := r.damage.takenTracking))
  {
    var full := FullHealth(t, v);
    v.(health := HealthAfter(full, v.health, dmg, t.minHealth),
       damage := v.damage.(takenTracking :=
         TrackingAfter(v.damage.takenTracking, full, v.health, dmg, t.minHealth, aggressorId, killAssists)))
  }

  /** Damage of a ranged projectile: its base damage, doubled by repel. */
  function RangedDamage(t: CombatTables, mob: Mob): (dmg: real)
    ensures mob.doubled ==> dmg == 2.0 * t.projectileDamage(mob.mobType)
    ensures !mob.doubled ==> dmg == t.projectileDamage(mob.mobType)
  {
    var base := t.projectileDamage(mob.mobType);
    if mob.doubled then base * 2.0 else base
  }

  /** Damage statistics of a connected projectile owner: the rounded,
      undoubled base damage times 100 and one hit, also counted against bots
      when the victim is a bot. */
  function CreditOwner(o: Player, base: real, victimIsBot: bool): (r: Player)
    ensures r.damage.current == o.damage.current + Round(base * 100.0)
    ensures r.damage.hits == o.damage.hits + 1
    ensures victimIsBot ==> r.damage.bots == o.damage.bots + Round(base * 100.0)
                            && r.damage.hitsToBots == o.damage.hitsToBots + 1
    ensures !victimIsBot ==> r.damage.bots == o.damage.bots && r.damage.hitsToBots == o.damage.hitsToBots
    ensures r == o.(damage := r.damage) && r.damage.takenTracking == o.damage.takenTracking
    ensures r.damage.hitsReceived == o.damage.hitsReceived && r.damage.hitsByBots == o.damage.hitsByBots
  {
    var tracking := Round(base * 100.0);
    var d := o.damage.(current := o.damage.current + tracking, hits := o.damage.hits + 1);
    var d' := if victimIsBot then d.(bots := d.bots + tracking, hitsToBots := d.hitsToBots + 1) else d;
    o.(damage := d')
  }

  /** The victim after an infected player's melee hit: the hit is counted
      and the normalised health is compared with the floor. */
  function MeleeVictim(t: CombatTables, now: int, v: Player): (w: Player)
    requires HasHealthTables(t, v)
    ensures w.health >= t.minHealth
    ensures MeleeLethal(t, v) ==> w.health == t.minHealth
    ensures !MeleeLethal(t, v) ==> w.health * FullHealth(t, v) == FullHealth(t, v) * v.health - t.projectileDamage(t.copterMissile)
    ensures w.damage.takenTracking == v.damage.takenTracking && w.damage.current == v.damage.current
    ensures w.damage.hitsReceived == v.damage.hitsReceived + 1 && w.times.lastHit == now
    ensures w.id == v.id && w.stealthed == v.stealthed && w.shield == v.shield && w.team == v.team
    ensures w.times.lastStealth == v.times.lastStealth
    ensures w == v.(health := w.health, times := v.times.(lastHit := now),
                    damage := v.damage.(hitsReceived := v.damage.hitsReceived + 1))
  {
    var w := ReceiveHit(v, now);
    var full := FullHealth(t, w);
    var health := (full * w.health - t.projectileDamage(t.copterMissile)) / full;
    if health <= t.minHealth then w.(health := t.minHealth) else w.(health := health)
  }

  /** Whether a melee hit leaves the normalised health at or below the floor. */
  predicate MeleeLethal(t: CombatTables, v: Player)
    requires HasHealthTables(t, v)
  {
    var full := FullHealth(t, v);
    (full * v.health - t.projectileDamage(t.copterMissile)) / full <= t.minHealth
  }

  /** An infected player's melee hit on victim `v` (stealth already broken).
      Unknown aggressor or shield: nothing more. Otherwise a lethal hit emits
      the kill with the aggressor first. */
  function MeleeHit(t: CombatTables, now: int, players: Roster, v: Player, stealthEvents: seq<Event>,
                    aggressorId: PlayerId): (r: HitResult)
    requires HasHealthTables(t, v)
    ensures Lookup(players, aggressorId).None? || v.shield ==>
              r == HitResult(Replace(players, v), stealthEvents)
    ensures Lookup(players, aggressorId).Some? && !v.shield ==>
              r.players == Replace(players, MeleeVictim(t, now, v))
    ensures |r.events| >= |stealthEvents| && r.events[..|stealthEvents|] == stealthEvents
    ensures PlayersKill(aggressorId, v.id, true) in r.events[|stealthEvents|..] <==>
              Lookup(players, aggressorId).Some? && !v.shield && MeleeLethal(t, v)
    ensures r.events == stealthEvents
                        + if Lookup(players, aggressorId).Some? && !v.shield && MeleeLethal(t, v)
                          then [PlayersKill(aggressorId, v.id, true), BroadcastPlayerKill(aggressorId, v.id)]
                          else []
  {
    if Lookup(players, aggressorId).None? || v.shield then
      HitResult(Replace(players, v), stealthEvents)
    else if MeleeLethal(t, v) then
      var events := stealthEvents + [PlayersKill(aggressorId, v.id, true), BroadcastPlayerKill(aggressorId, v.id)];
      assert events[|stealthEvents|..] == [PlayersKill(aggressorId, v.id, true), BroadcastPlayerKill(aggressorId, v.id)];
      HitResult(Replace(players, MeleeVictim(t, now, v)), events)
    else
      HitResult(Replace(players, MeleeVictim(t, now, v)), stealthEvents)
  }

  /** The victim after a ranged hit: counted, credited as its own owner when
      `selfCredit`, one more hit by a bot when the owner is a bot, damaged. */
  function RangedVictim(t: CombatTables, cfg: HitConfig, now: int, v: Player, mob: Mob, ownerId: PlayerId,
                        selfCredit: bool, ownerIsBot: bool): (w: Player)
    requires HasHealthTables(t, v)
    ensures w.id == v.id && w.shield == v.shield && w.stealthed == v.stealthed
    ensures w.times.lastStealth == v.times.lastStealth
    ensures w.times.lastHit == now && w.damage.hitsReceived == v.damage.hitsReceived + 1
    ensures w.damage.hitsByBots == v.damage.hitsByBots + (if ownerIsBot then 1 else 0)
    ensures w.health == HealthAfter(FullHealth(t, v), v.health, RangedDamage(t, mob), t.minHealth)
    ensures w.damage.takenTracking == TrackingAfter(v.damage.takenTracking, FullHealth(t, v), v.health,
                                                    RangedDamage(t, mob), t.minHealth, ownerId, cfg.killAssists)
    ensures !selfCredit ==> w.damage.current == v.damage.current
    ensures selfCredit ==> w.damage.current == v.damage.current + Round(t.projectileDamage(mob.mobType) * 100.0)
                           && w.damage.hits == v.damage.hits + 1
    ensures !selfCredit ==> w.damage.hits == v.damage.hits
    ensures selfCredit && v.isBot ==> w.damage.bots == v.damage.bots + Round(t.projectileDamage(mob.mobType) * 100.0)
                                      && w.damage.hitsToBots == v.damage.hitsToBots + 1
    ensures !(selfCredit && v.isBot) ==> w.damage.bots == v.damage.bots && w.damage.hitsToBots == v.damage.hitsToBots
    ensures w == v.(health := w.health, times := v.times.(lastHit := now), damage := w.damage)
  {
    var w := CountRangedHit(t, now, v, mob, selfCredit, ownerIsBot);
    assert FullHealth(t, w) == FullHealth(t, v);
    ApplyDamage(t, w, RangedDamage(t, mob), ownerId, cfg.killAssists)
  }

  /** The ranged-hit counters of the victim, before the damage. */
  function CountRangedHit(t: CombatTables, now: int, v: Player, mob: Mob, selfCredit: bool, ownerIsBot: bool): (w: Player)
    ensures w.id == v.id && w.shield == v.shield && w.stealthed == v.stealthed && w.ship == v.ship
    ensures w.upgrades == v.upgrades && w.health == v.health && w.damage.takenTracking == v.damage.takenTracking
    ensures w.times.lastStealth == v.times.lastStealth
    ensures w.times.lastHit == now && w.damage.hitsReceived == v.damage.hitsReceived + 1
    ensures w.damage.hitsByBots == v.damage.hitsByBots + (if ownerIsBot then 1 else 0)
    ensures !selfCredit ==> w.damage.current == v.damage.current
    ensures selfCredit ==> w.damage.current == v.damage.current + Round(t.projectileDamage(mob.mobType) * 100.0)
                           && w.damage.hits == v.damage.hits + 1
    ensures !selfCredit ==> w.damage.hits == v.damage.hits
    ensures selfCredit && v.isBot ==> w.damage.bots == v.damage.bots + Round(t.projectileDamage(mob.mobType) * 100.0)
                                      && w.damage.hitsToBots == v.damage.hitsToBots + 1
    ensures !(selfCredit && v.isBot) ==> w.damage.bots == v.damage.bots && w.damage.hitsToBots == v.damage.hitsToBots
    ensures w == v.(times := v.times.(lastHit := now), damage := w.damage)
  {
    var w := ReceiveHit(v, now);
    var w' := if selfCredit then CreditOwner(w, t.projectileDamage(mob.mobType), v.isBot) else w;
    if ownerIsBot then w'.(damage := w'.damage.(hitsByBots := w'.damage.hitsByBots + 1)) else w'
  }

  /** A ranged hit by a projectile of owner `ownerId` on unshielded victim
      `v`: the owner is credited when connected (here: when in the player
      list) and the damage applied. No kill is emitted here. */
  function RangedHit(t: CombatTables, cfg: HitConfig, now: int, players: Roster, v: Player,
                     stealthEvents: seq<Event>, mob: Mob, ownerId: PlayerId): (r: HitResult)
    requires HasHealthTables(t, v)
    ensures r.events == stealthEvents
    ensures ownerId == v.id ==> r.players == Replace(players, RangedVictim(t, cfg, now, v, mob, ownerId, true, v.isBot))
    ensures ownerId != v.id && Lookup(players, ownerId).None? ==>
              r.players == Replace(players, RangedVictim(t, cfg, now, v, mob, ownerId, false, false))
    ensures ownerId != v.id && Lookup(players, ownerId).Some? ==>
              var o := Lookup(players, ownerId).value;
              r.players == Replace(Replace(players, CreditOwner(o, t.projectileDamage(mob.mobType), v.isBot)),
                                   RangedVictim(t, cfg, now, v, mob, ownerId, false, o.isBot))
  {
    if ownerId == v.id then
      HitResult(Replace(players, RangedVictim(t, cfg, now, v, mob, ownerId, true, v.isBot)), stealthEvents)
    else match Lookup(players, ownerId)
      case None =>
        HitResult(Replace(players, RangedVictim(t, cfg, now, v, mob, ownerId, false, false)), stealthEvents)
      case Some(o) =>
        var credited := Replace(players, CreditOwner(o, t.projectileDamage(mob.mobType), v.isBot));
        HitResult(Replace(credited, RangedVictim(t, cfg, now, v, mob, ownerId, false, o.isBot)), stealthEvents)
  }

  /** A hit on a known victim `v` in an active match. Stealth is broken
      first, whatever follows; the shield then blocks melee and ranged hits
      but not the firewall. An unknown projectile, or an ownerless one
      outside the infection mode, ends the handler (the source throws) after
      the stealth break. */
  function HitVictim(now: int, cfg: HitConfig, t: CombatTables, players: Roster, mobs: map<int, Mob>,
                     v: Player, projectileId: int, firewallDamage: real): (r: HitResult)
    requires HasHealthTables(t, v)
    ensures |r.events| >= |BreakStealth(v, now).1| && r.events[..|BreakStealth(v, now).1|] == BreakStealth(v, now).1
    ensures projectileId != 0 && v.shield ==>
              r == HitResult(Replace(players, BreakStealth(v, now).0), BreakStealth(v, now).1)
    ensures projectileId == 0 ==>
              r == HitResult(Replace(players, ApplyDamage(t, BreakStealth(v, now).0, firewallDamage, 0, cfg.killAssists)),
                             BreakStealth(v, now).1)
    ensures projectileId != 0 && projectileId !in mobs ==>
              r == HitResult(Replace(players, BreakStealth(v, now).0), BreakStealth(v, now).1)
    ensures projectileId != 0 && projectileId in mobs && mobs[projectileId].owner.None? ==>
              r == if cfg.gameType == INFECTION_MODE
                   then MeleeHit(t, now, players, BreakStealth(v, now).0, BreakStealth(v, now).1, projectileId)
                   else HitResult(Replace(players, BreakStealth(v, now).0), BreakStealth(v, now).1)
    ensures projectileId != 0 && projectileId in mobs && mobs[projectileId].owner.Some? && !v.shield ==>
              r == RangedHit(t, cfg, now, players, BreakStealth(v, now).0, BreakStealth(v, now).1,
                             mobs[projectileId], mobs[projectileId].owner.value)
  {
    var (v1, stealthEvents) := BreakStealth(v, now);
    assert FullHealth(t, v1) == FullHealth(t, v);
    if projectileId == 0 then
      HitResult(Replace(players, ApplyDamage(t, v1, firewallDamage, 0, cfg.killAssists)), stealthEvents)
    else if projectileId !in mobs then
      HitResult(Replace(players, v1), stealthEvents)
    else
      var mob := mobs[projectileId];
      if mob.owner.None? && cfg.gameType == INFECTION_MODE then
        MeleeHit(t, now, players, v1, stealthEvents, projectileId)
      else if v1.shield || mob.owner.None? then
        HitResult(Replace(players, v1), stealthEvents)
      else
        RangedHit(t, cfg, now, players, v1, stealthEvents, mob, mob.owner.value)
  }

  /** The hit handler: an inactive match ignores the hit, and so does an
      unknown victim (the source throws before changing anything). */
  function OnHitPlayer(active: bool, now: int, cfg: HitConfig, t: CombatTables,
                       players: Roster, mobs: map<int, Mob>,
                       victimId: PlayerId, projectileId: int, firewallDamage: real): (r: HitResult)
    requires VictimHasHealthTables(t, players, victimId)
    ensures !active || !HasId(players, victimId) ==> r == HitResult(players, [])
    ensures active && HasId(players, victimId) ==>
              r == HitVictim(now, cfg, t, players, mobs, Lookup(players, victimId).value, projectileId, firewallDamage)
  {
    if !active then HitResult(players, [])
    else match Lookup(players, victimId)
      case None => HitResult(players, [])
      case Some(v) => HitVictim(now, cfg, t, players, mobs, v, projectileId, firewallDamage)
  }

  /** Every hit on a known victim in an active match leaves it unstealthed,
      and a stealthed victim gets the hit time as its last stealth time, even
      when the shield then blocks the damage. */
  lemma StealthAlwaysBroken(now: int, cfg: HitConfig, t: CombatTables, players: Roster, mobs: map<int, Mob>,
                            v: Player, projectileId: int, firewallDamage: real)
    requires HasHealthTables(t, v) && HasId(players, v.id)
    ensures var r := HitVictim(now, cfg, t, players, mobs, v, projectileId, firewallDamage);
            && Lookup(r.players, v.id).Some?
            && !Lookup(r.players, v.id).value.stealthed
            && (v.stealthed ==> Lookup(r.players, v.id).value.times.lastStealth == now)
  {
    var (v1, stealthEvents) := BreakStealth(v, now);
    assert FullHealth(t, v1) == FullHealth(t, v);
    if projectileId != 0 && projectileId in mobs {
      var mob := mobs[projectileId];
      if mob.owner.None? && cfg.gameType == INFECTION_MODE {
        MeleeKeepsStealthState(t, now, players, v1, stealthEvents, projectileId);
      } else if !v1.shield && mob.owner.Some? {
        RangedKeepsStealthState(t, cfg, now, players, v1, stealthEvents, mob, mob.owner.value);
      }
    }
  }

  lemma MeleeKeepsStealthState(t: CombatTables, now: int, players: Roster, v: Player, stealthEvents: seq<Event>,
                               aggressorId: PlayerId)
    requires HasHealthTables(t, v) && HasId(players, v.id)
    ensures var w := Lookup(MeleeHit(t, now, players, v, stealthEvents, aggressorId).players, v.id);
            w.Some? && w.value.stealthed == v.stealthed && w.value.times.lastStealth == v.times.lastStealth
  {
  }

  lemma RangedKeepsStealthState(t: CombatTables, cfg: HitConfig, now: int, players: Roster, v: Player,
                                stealthEvents: seq<Event>, mob: Mob, ownerId: PlayerId)
    requires HasHealthTables(t, v) && HasId(players, v.id)
    ensures var w := Lookup(RangedHit(t, cfg, now, players, v, stealthEvents, mob, ownerId).players, v.id);
            w.Some? && w.value.stealthed == v.stealthed && w.value.times.lastStealth == v.times.lastStealth
  {
    if ownerId != v.id && Lookup(players, ownerId).Some? {
      var o := Lookup(players, ownerId).value;
      var ps := Replace(players, CreditOwner(o, t.projectileDamage(mob.mobType), v.isBot));
      assert HasId(ps, v.id);
    }
  }

  /** With non-negative damage and a health at or above the floor, firewall
      and ranged damage never raise the health. */
  lemma HealthNeverIncreases(full: real, before: real, dmg: real, minHealth: real)
    requires full > 0.0 && dmg >= 0.0 && before >= minHealth
    ensures HealthAfter(full, before, dmg, minHealth) <= before
  {
    var h := HealthAfter(full, before, dmg, minHealth);
    if !Lethal(full, before, dmg, minHealth) {
      assert h * full <= before * full;
    }
  }

  /** The comparison with the floor is made on the absolute health, so a
      non-lethal hit on a sturdy ship can store a normalised health below the
      floor: full health 2, health 0.1, damage 0.05 and floor 0.1 leave 0.075. */
  lemma NonLethalCanEndBelowFloor()
    ensures !Lethal(2.0, 0.1, 0.05, 0.1)
    ensures HealthAfter(2.0, 0.1, 0.05, 0.1) == 0.075
  {
  }

  /** A buffer of whole pairs within the limit stays so after tracking a hit. */
  lemma {:induction false} TrackKeepsPairsWithinLimit(buf: seq<real>, who: real, share: real)
    requires |buf| % 2 == 0 && |buf| <= TRACKING_LIMIT
    ensures |Track(buf, who, share)| % 2 == 0 && |Track(buf, who, share)| <= TRACKING_LIMIT
  {
  }

  /** After a lethal tracked hit the newest entry is the share of full health
      the victim actually had left: dmg / full plus the (non-positive)
      remainder over full equals the pre-hit normalised health. */
  lemma LethalShareIsPreHitHealth(buf: seq<real>, full: real, before: real, dmg: real, minHealth: real,
                                  aggressorId: PlayerId)
    requires full > 0.0 && Lethal(full, before, dmg, minHealth)
    ensures var r := TrackingAfter(buf, full, before, dmg, minHealth, aggressorId, true);
            r[|r| - 1] == before
  {
    var r := TrackingAfter(buf, full, before, dmg, minHealth, aggressorId, true);
    assert r[|r| - 1] == dmg / full + (full * before - dmg) / full;
    assert dmg / full + (full * before - dmg) / full == (dmg + (full * before - dmg)) / full;
  }
}

=== FILE: inf_players.dfy ===
/** Team assignment, spawn placement and team reshuffle of the infection mode.

    The reshuffle scores every human from the match statistics of all
    players, sorts the playing humans by descending score, splits them
    greedily between two teams, then deals spectators and bots out in
    strict alternation. Only entities whose team changes are re-teamed. */
module InfPlayers {
  import opened Players
  import opened Events
  import Text

  // ---------------------------------------------------------------------
  // Join-time team

  /** Bots per team, counting every non-BLUE bot as RED. */
  function BotTeamCounts(ps: Roster): (r: (nat, nat))
    ensures r.0 == CountTeam(TeamsOf(Bots(ps)), BLUE)
    ensures r.0 + r.1 == |Bots(ps)|
  {
    if |ps| == 0 then (0, 0)
    else
      var rest := BotTeamCounts(ps[1..]);
      BotTeamsStep(ps);
      if !ps[0].isBot then rest
      else
        CountTeamCons(ps[0].team, TeamsOf(Bots(ps[1..])), BLUE);
        if ps[0].team == BLUE then (rest.0 + 1, rest.1)
        else (rest.0, rest.1 + 1)
  }

  /** The teams of the players, in order. */
  function TeamsOf(ps: Roster): (ts: seq<TeamId>)
    ensures |ts| == |ps| && forall i :: 0 <= i < |ps| ==> ts[i] == ps[i].team
  {
    if |ps| == 0 then [] else [ps[0].team] + TeamsOf(ps[1..])
  }

  lemma BotTeamsStep(ps: Roster)
    requires |ps| > 0
    ensures TeamsOf(Bots(ps)) == (if ps[0].isBot then [ps[0].team] else []) + TeamsOf(Bots(ps[1..]))
  {
    if ps[0].isBot {
      var rest := Bots(ps[1..]);
      assert Bots(ps) == [ps[0]] + rest;
      assert ([ps[0]] + rest)[1..] == rest;
    } else {
      assert Bots(ps) == Bots(ps[1..]);
    }
  }

  lemma CountTeamCons(t: TeamId, ts: seq<TeamId>, team: TeamId)
    ensures CountTeam([t] + ts, team) == (if t == team then 1 else 0) + CountTeam(ts, team)
  {
    assert ([t] + ts)[1..] == ts;
  }

  /** The (blue, red) counts the join-time choice compares: bots per team for
      a joining bot, the sizes of the per-team connection sets for a human. */
  function JoinCounts(p: Player, ps: Roster, blueConnections: nat, redConnections: nat): (nat, nat) {
    if p.isBot then BotTeamCounts(ps) else (blueConnections, redConnections)
  }

  /** The bot-ratio choice: RED when red holds less than 33% of the bots.
      With no bots at all the ratio is not a number and the comparison
      fails, giving BLUE. */
  function BotRatioTeam(blue: nat, red: nat): (team: TeamId)
    ensures team == RED <==> red + blue > 0 && (red as real) * 100.0 < 33.0 * ((red + blue) as real)
  {
    if red + blue == 0 then BLUE
    else
      RatioBelow(red as real, (red + blue) as real, 0.33);
      if (red as real) / ((red + blue) as real) < 0.33 then RED else BLUE
  }

  /** A quotient is below a bound exactly when the numerator is below the
      bound times the (positive) denominator. */
  lemma RatioBelow(x: real, y: real, c: real)
    requires y > 0.0
    ensures x / y < c <==> x < c * y
  {
    var q := x / y;
    assert q * y == x;
    if q < c {
      assert q * y < c * y;
    } else {
      assert q * y >= c * y;
    }
  }

  /** Join-time team. The bot-ratio choice is made for bots and then
      overwritten: the player goes to RED exactly when the counted BLUE total
      exceeds the RED total, so ties go to BLUE. */
  function OnAssignPlayerTeam(p: Player, ps: Roster, blueConnections: nat, redConnections: nat): (q: Player)
    ensures q == p.(team := q.team)
    ensures var counts := JoinCounts(p, ps, blueConnections, redConnections);
            (q.team == RED <==> counts.0 > counts.1) && (q.team == BLUE <==> counts.0 <= counts.1)
  {
    var (blue, red) := JoinCounts(p, ps, blueConnections, redConnections);
    var p1 := if p.isBot then p.(team := BotRatioTeam(blue, red)) else p;
    p1.(team := if blue > red then RED else BLUE)
  }

  /** The bot-ratio branch never decides the team, and it would have
      decided differently: with two BLUE bots and one RED bot the ratio is
      one third, which picks BLUE, while the joining bot goes to RED. */
  lemma BotRatioIsOverwritten(p: Player, blueConnections: nat, redConnections: nat)
    requires p.isBot
    ensures var bots := [p.(id := 1, team := BLUE), p.(id := 2, team := BLUE), p.(id := 3, team := RED)];
            && BotRatioTeam(BotTeamCounts(bots).0, BotTeamCounts(bots).1) == BLUE
            && OnAssignPlayerTeam(p, bots, blueConnections, redConnections).team == RED
  {
    var bots := [p.(id := 1, team := BLUE), p.(id := 2, team := BLUE), p.(id := 3, team := RED)];
    assert BotTeamCounts(bots[2..]) == (0, 1) by {
      assert bots[2..][1..] == [];
    }
    assert bots[1..][1..] == bots[2..];
    assert BotTeamCounts(bots[1..]) == (1, 1);
    assert BotTeamCounts(bots) == (2, 1);
  }

  // ---------------------------------------------------------------------
  // Spawn placement

  /** A spawn zone: centre and half-width. */
  datatype Zone = Zone(x: int, y: int, r: int)

  const BLUE_SPAWN_ZONE := Zone(-8580, -1500, 100)
  const RED_SPAWN_ZONE := Zone(0, 0, 250)

  /** The team's zone; every team other than BLUE uses the RED zone. */
  function SpawnZone(team: TeamId): Zone {
    if team == BLUE then BLUE_SPAWN_ZONE else RED_SPAWN_ZONE
  }

  /** The zone a spawn is drawn from: the team zone for a bot, a player whose
      last life did not end in a kill, or with extra spawns off; otherwise
      the origin with radius 0 (the extra zones are never consulted). */
  function SpawnBase(p: Player, extraSpawns: bool): Zone {
    if p.isBot || !p.alive.isLastStateKilled || !extraSpawns then SpawnZone(p.team)
    else Zone(0, 0, 0)
  }

  /** Spawn position: the base plus offsets `dx`, `dy` drawn from the
      integers in [-r, r]. Only the position changes. */
  function OnAssignPlayerSpawnPosition(p: Player, extraSpawns: bool, dx: int, dy: int): (q: Player)
    requires -SpawnBase(p, extraSpawns).r <= dx <= SpawnBase(p, extraSpawns).r
    requires -SpawnBase(p, extraSpawns).r <= dy <= SpawnBase(p, extraSpawns).r
    ensures q == p.(position := q.position)
    ensures p.isBot || !p.alive.isLastStateKilled || !extraSpawns ==>
              var z := if p.team == BLUE then Zone(-8580, -1500, 100) else Zone(0, 0, 250);
              z.x - z.r <= q.position.x <= z.x + z.r && z.y - z.r <= q.position.y <= z.y + z.r
    ensures !(p.isBot || !p.alive.isLastStateKilled || !extraSpawns) ==> q.position == Position(0, 0)
  {
    var z := SpawnBase(p, extraSpawns);
    p.(position := Position(z.x + dx, z.y + dy))
  }

  /** Every point of the zone's square can be drawn. */
  lemma SpawnCoversZone(p: Player, extraSpawns: bool, x: int, y: int)
    requires var z := SpawnBase(p, extraSpawns); z.x - z.r <= x <= z.x + z.r && z.y - z.r <= y <= z.y + z.r
    ensures var z := SpawnBase(p, extraSpawns);
            OnAssignPlayerSpawnPosition(p, extraSpawns, x - z.x, y - z.y).position == Position(x, y)
  {
  }

  // ---------------------------------------------------------------------
  // Reshuffle: statistics and scores

  /** Population totals. `xPlayers` counts the players with a positive `x`. */
  datatype Totals = Totals(
    kills: nat, deaths: nat, damage: int,
    carriersKills: nat, carriersKillsPlayers: nat,
    deathsWithFlag: nat, deathsWithFlagPlayers: nat,
    capAttempts: nat, capAttemptsPlayers: nat,
    capSaves: nat, capSavesPlayers: nat,
    successCaps: nat, successCapsPlayers: nat,
    recaptures: nat, recapturesPlayers: nat)

  function Positive(n: nat): nat { if n > 0 then 1 else 0 }

  /** The totals of an empty population. */
  const NoTotals := Totals(0, 0, 0, 0, 0, 0, 0, 0, 0, 0, 0, 0, 0, 0, 0)

  /** What one player adds to the totals: each statistic, and 1 to a
      statistic's player count when the player's value is positive. */
  function Contribution(p: Player): Totals {
    Totals(
      p.kills.current, p.deaths.current, p.damage.current,
      p.kills.carriers, Positive(p.kills.carriers),
      p.deaths.withFlag, Positive(p.deaths.withFlag),
      p.captures.attempts, Positive(p.captures.attempts),
      p.captures.saves, Positive(p.captures.saves),
      p.captures.current, Positive(p.captures.current),
      p.recaptures, Positive(p.recaptures))
  }

  /** Field-wise sum of two totals. */
  function AddTotals(a: Totals, b: Totals): Totals {
    Totals(
      a.kills + b.kills, a.deaths + b.deaths, a.damage + b.damage,
      a.carriersKills + b.carriersKills, a.carriersKillsPlayers + b.carriersKillsPlayers,
      a.deathsWithFlag + b.deathsWithFlag, a.deathsWithFlagPlayers + b.deathsWithFlagPlayers,
      a.capAttempts + b.capAttempts, a.capAttemptsPlayers + b.capAttemptsPlayers,
      a.capSaves + b.capSaves, a.capSavesPlayers + b.capSavesPlayers,
      a.successCaps + b.successCaps, a.successCapsPlayers + b.successCapsPlayers,
      a.recaptures + b.recaptures, a.recapturesPlayers + b.recapturesPlayers)
  }

  /** Totals over all players, bots included: each player's contribution
      added up, in list order. */
  function Accumulate(ps: Roster): (t: Totals)
    ensures t.carriersKillsPlayers <= |ps| && t.deathsWithFlagPlayers <= |ps| && t.capAttemptsPlayers <= |ps|
    ensures t.capSavesPlayers <= |ps| && t.successCapsPlayers <= |ps| && t.recapturesPlayers <= |ps|
    ensures t.deaths == 0 <==> forall i :: 0 <= i < |ps| ==> ps[i].deaths.current == 0
  {
    if |ps| == 0 then Totals(0, 0, 0, 0, 0, 0, 0, 0, 0, 0, 0, 0, 0, 0, 0)
    else AddTotals(Contribution(ps[0]), Accumulate(ps[1..]))
  }

  /** One player's totals are that player's contribution. */
  lemma AccumulateOne(p: Player)
    ensures Accumulate([p]) == Contribution(p)
  {
    assert [p][1..] == [];
    AddTotalsZero(Contribution(p));
  }

  lemma AddTotalsZero(t: Totals)
    ensures AddTotals(t, NoTotals) == t
  {
  }

  /** The totals of a concatenation are the sums of the parts' totals, so
      the totals are the sum of every player's contribution. */
  lemma {:induction false} AccumulateAppend(a: Roster, b: Roster)
    ensures Accumulate(a + b) == AddTotals(Accumulate(a), Accumulate(b))
  {
    if |a| == 0 {
      assert a + b == b;
    } else {
      assert (a + b)[1..] == a[1..] + b;
      AccumulateAppend(a[1..], b);
      AddTotalsAssociative(Contribution(a[0]), Accumulate(a[1..]), Accumulate(b));
    }
  }

  lemma AddNoTotals(t: Totals)
    ensures AddTotals(NoTotals, t) == t
  {
  }

  lemma AddTotalsAssociative(x: Totals, y: Totals, z: Totals)
    ensures AddTotals(x, AddTotals(y, z)) == AddTotals(AddTotals(x, y), z)
  {
  }

  /** The six statistics that are averaged over the players who have them. */
  datatype Statistic = CarriersKills | DeathsWithFlag | CapAttempts | CapSaves | SuccessCaps | Recaptures

  /** A player's value of statistic `k`. */
  function StatOf(p: Player, k: Statistic): nat {
    match k
    case CarriersKills => p.kills.carriers
    case DeathsWithFlag => p.deaths.withFlag
    case CapAttempts => p.captures.attempts
    case CapSaves => p.captures.saves
    case SuccessCaps => p.captures.current
    case Recaptures => p.recaptures
  }

  /** The total of statistic `k` and the number of players counted for it. */
  function SumAndCount(t: Totals, k: Statistic): (nat, nat) {
    match k
    case CarriersKills => (t.carriersKills, t.carriersKillsPlayers)
    case DeathsWithFlag => (t.deathsWithFlag, t.deathsWithFlagPlayers)
    case CapAttempts => (t.capAttempts, t.capAttemptsPlayers)
    case CapSaves => (t.capSaves, t.capSavesPlayers)
    case SuccessCaps => (t.successCaps, t.successCapsPlayers)
    case Recaptures => (t.recaptures, t.recapturesPlayers)
  }

  /** A statistic's total is zero exactly when every player's value is zero,
      and exactly when no player is counted for it. */
  lemma {:induction false} AccumulateZero(ps: Roster, k: Statistic)
    ensures var sc := SumAndCount(Accumulate(ps), k);
            && (sc.0 == 0 <==> sc.1 == 0)
            && (sc.0 == 0 <==> forall i :: 0 <= i < |ps| ==> StatOf(ps[i], k) == 0)
  {
    if |ps| > 0 {
      AccumulateZero(ps[1..], k);
      AccumulateStep(ps, k);
      assert forall i :: 1 <= i < |ps| ==> ps[1..][i - 1] == ps[i];
    }
  }

  lemma AccumulateStep(ps: Roster, k: Statistic)
    requires |ps| > 0
    ensures SumAndCount(Accumulate(ps), k).0 == StatOf(ps[0], k) + SumAndCount(Accumulate(ps[1..]), k).0
    ensures SumAndCount(Accumulate(ps), k).1 == Positive(StatOf(ps[0], k)) + SumAndCount(Accumulate(ps[1..]), k).1
  {
    var c := Contribution(ps[0]);
    var rest := Accumulate(ps[1..]);
    assert Accumulate(ps) == AddTotals(c, rest);
    SumAndCountAdd(c, rest, k);
    assert SumAndCount(c, k) == (StatOf(ps[0], k), Positive(StatOf(ps[0], k))) by {
      match k
      case CarriersKills =>
      case DeathsWithFlag =>
      case CapAttempts =>
      case CapSaves =>
      case SuccessCaps =>
      case Recaptures =>
    }
    var whole := SumAndCount(AddTotals(c, rest), k);
    assert whole.0 == StatOf(ps[0], k) + SumAndCount(rest, k).0;
    assert whole.1 == Positive(StatOf(ps[0], k)) + SumAndCount(rest, k).1;
  }

  lemma SumAndCountAdd(a: Totals, b: Totals, k: Statistic)
    ensures SumAndCount(AddTotals(a, b), k)
            == (SumAndCount(a, k).0 + SumAndCount(b, k).0, SumAndCount(a, k).1 + SumAndCount(b, k).1)
  {
  }

  /** Raising a zero denominator to 1 only touches a statistic that nobody
      has, which `Score` skips, or the deaths of a population where nobody
      died. */
  lemma FlooringTouchesOnlyEmpty(ps: Roster)
    ensures var t := Accumulate(ps); var f := FloorDenominators(t);
            && (f.deaths != t.deaths ==> forall i :: 0 <= i < |ps| ==> ps[i].deaths.current == 0)
            && (f.carriersKillsPlayers != t.carriersKillsPlayers ==> t.carriersKills == 0)
            && (f.deathsWithFlagPlayers != t.deathsWithFlagPlayers ==> t.deathsWithFlag == 0)
            && (f.capAttemptsPlayers != t.capAttemptsPlayers ==> t.capAttempts == 0)
            && (f.capSavesPlayers != t.capSavesPlayers ==> t.capSaves == 0)
            && (f.successCapsPlayers != t.successCapsPlayers ==> t.successCaps == 0)
            && (f.recapturesPlayers != t.recapturesPlayers ==> t.recaptures == 0)
  {
    AccumulateZero(ps, CarriersKills);
    AccumulateZero(ps, DeathsWithFlag);
    AccumulateZero(ps, CapAttempts);
    AccumulateZero(ps, CapSaves);
    AccumulateZero(ps, SuccessCaps);
    AccumulateZero(ps, Recaptures);
  }

  function AtLeastOne(n: nat): (m: nat)
    ensures m >= 1 && (n >= 1 ==> m == n)
  {
    if n == 0 then 1 else n
  }

  /** Every denominator is at least 1 before any division. */
  predicate Floored(t: Totals) {
    && t.deaths >= 1 && t.carriersKillsPlayers >= 1 && t.deathsWithFlagPlayers >= 1
    && t.capAttemptsPlayers >= 1 && t.capSavesPlayers >= 1 && t.successCapsPlayers >= 1
    && t.recapturesPlayers >= 1
  }

  /** Zero deaths and zero per-statistic player counts become 1; sums and
      every non-zero count are kept. */
  function FloorDenominators(t: Totals): (f: Totals)
    ensures Floored(f)
    ensures f.kills == t.kills && f.damage == t.damage && f.carriersKills == t.carriersKills
    ensures f.deathsWithFlag == t.deathsWithFlag && f.capAttempts == t.capAttempts && f.capSaves == t.capSaves
    ensures f.successCaps == t.successCaps && f.recaptures == t.recaptures
    ensures t.deaths >= 1 ==> f.deaths == t.deaths
    ensures t.carriersKillsPlayers >= 1 ==> f.carriersKillsPlayers == t.carriersKillsPlayers
    ensures t.deathsWithFlagPlayers >= 1 ==> f.deathsWithFlagPlayers == t.deathsWithFlagPlayers
    ensures t.capAttemptsPlayers >= 1 ==> f.capAttemptsPlayers == t.capAttemptsPlayers
    ensures t.capSavesPlayers >= 1 ==> f.capSavesPlayers == t.capSavesPlayers
    ensures t.successCapsPlayers >= 1 ==> f.successCapsPlayers == t.successCapsPlayers
    ensures t.recapturesPlayers >= 1 ==> f.recapturesPlayers == t.recapturesPlayers
  {
    t.(deaths := AtLeastOne(t.deaths),
       carriersKillsPlayers := AtLeastOne(t.carriersKillsPlayers),
       deathsWithFlagPlayers := AtLeastOne(t.deathsWithFlagPlayers),
       capAttemptsPlayers := AtLeastOne(t.capAttemptsPlayers),
       capSavesPlayers := AtLeastOne(t.capSavesPlayers),
       successCapsPlayers := AtLeastOne(t.successCapsPlayers),
       recapturesPlayers := AtLeastOne(t.recapturesPlayers))
  }

  function Point(b: bool): int { if b then 1 else 0 }

  /** Mean of `total` over `count` players, as a real. */
  function Mean(total: int, count: nat): real
    requires count >= 1
  {
    (total as real) / (count as real)
  }

  /** Fairness score: 1, plus 1 per statistic in which the player is at or
      above the population mean (strictly below it for deaths with the
      flag). Statistics nobody has are skipped. */
  function Score(p: Player, t: Totals, totalPlayers: nat): (score: int)
    requires Floored(t) && totalPlayers >= 1
    ensures 1 <= score <= 9
  {
    var kd := Mean(p.kills.current, AtLeastOne(p.deaths.current));
    1
    + Point(kd >= Mean(t.kills, t.deaths))
    + Point(p.damage.current as real >= Mean(t.damage, totalPlayers))
    + Point(t.carriersKills != 0 && p.kills.carriers as real >= Mean(t.carriersKills, t.carriersKillsPlayers))
    + Point(t.deathsWithFlag != 0 && (p.deaths.withFlag as real) < Mean(t.deathsWithFlag, t.deathsWithFlagPlayers))
    + Point(t.successCaps != 0 && p.captures.current as real >= Mean(t.successCaps, t.successCapsPlayers))
    + Point(t.capAttempts != 0 && p.captures.attempts as real >= Mean(t.capAttempts, t.capAttemptsPlayers))
    + Point(t.capSaves != 0 && p.captures.saves as real >= Mean(t.capSaves, t.capSavesPlayers))
    + Point(t.recaptures != 0 && p.recaptures as real >= Mean(t.recaptures, t.recapturesPlayers))
  }

  /** In a population that has done nothing, every human scores 3: the
      kill/death ratio and damage means are met with equality and every other
      statistic is skipped. */
  lemma IdleScore(p: Player, ps: Roster)
    requires forall i :: 0 <= i < |ps| ==> Idle(ps[i])
    requires Idle(p) && |ps| >= 1
    ensures Score(p, FloorDenominators(Accumulate(ps)), |ps|) == 3
  {
    IdleTotals(ps);
    IdleScoreOfIdleTotals(p, FloorDenominators(NoTotals), |ps|);
  }

  lemma IdleScoreOfIdleTotals(p: Player, t: Totals, n: nat)
    requires Idle(p) && n >= 1
    requires t == FloorDenominators(NoTotals)
    ensures Score(p, t, n) == 3
  {
    assert t.kills == 0 && t.deaths == 1 && t.damage == 0;
    assert t.carriersKills == 0 && t.deathsWithFlag == 0 && t.capAttempts == 0;
    assert t.capSaves == 0 && t.successCaps == 0 && t.recaptures == 0;
    assert Mean(p.kills.current, AtLeastOne(p.deaths.current)) == 0.0;
    assert Mean(t.kills, t.deaths) == 0.0;
    assert Mean(t.damage, n) == 0.0;
  }

  predicate Idle(p: Player) {
    && p.kills.current == 0 && p.kills.carriers == 0 && p.deaths.current == 0 && p.deaths.withFlag == 0
    && p.damage.current == 0 && p.captures == Captures(0, 0, 0) && p.recaptures == 0
  }

  lemma {:induction false} IdleTotals(ps: Roster)
    requires forall i :: 0 <= i < |ps| ==> Idle(ps[i])
    ensures Accumulate(ps) == NoTotals
  {
    if |ps| > 0 {
      IdleTotals(ps[1..]);
      assert Contribution(ps[0]) == NoTotals;
      AddNoTotals(NoTotals);
    }
  }

  // ---------------------------------------------------------------------
  // Reshuffle: lists

  /** An entity to place: id, score (0 for bots) and pre-shuffle team. */
  datatype Entry = Entry(id: PlayerId, score: int, team: TeamId)

  function PlayerIds(ps: Roster): (ids: seq<PlayerId>)
    ensures |ids| == |ps| && forall i :: 0 <= i < |ps| ==> ids[i] == ps[i].id
  {
    if |ps| == 0 then [] else [ps[0].id] + PlayerIds(ps[1..])
  }

  /** The ids of rated entries. Entries and player records are different
      types with no common supertype, so this mirrors `PlayerIds`. */
  function Ids(es: seq<Entry>): (ids: seq<PlayerId>)
    ensures |ids| == |es| && forall i :: 0 <= i < |es| ==> ids[i] == es[i].id
  {
    if |es| == 0 then [] else [es[0].id] + Ids(es[1..])
  }

  /** The humans of the list that are (or are not) spectating, in order. */
  function Humans(ps: Roster, spectating: bool): (hs: Roster)
  {
    if |ps| == 0 then []
    else if !ps[0].isBot && ps[0].spectate == spectating then [ps[0]] + Humans(ps[1..], spectating)
    else Humans(ps[1..], spectating)
  }

  /** The bots of the list, in order. */
  function Bots(ps: Roster): (bs: Roster)
  {
    if |ps| == 0 then []
    else if ps[0].isBot then [ps[0]] + Bots(ps[1..])
    else Bots(ps[1..])
  }

  /** A player is among the (non-)spectating humans exactly when it is in
      the list, is no bot and has that spectate flag. */
  lemma {:induction false} HumansMembers(ps: Roster, spectating: bool)
    ensures forall p :: p in Humans(ps, spectating) <==> p in ps && !p.isBot && p.spectate == spectating
  {
    if |ps| > 0 {
      HumansMembers(ps[1..], spectating);
      assert ps == [ps[0]] + ps[1..];
    }
  }

  /** A player is among the bots exactly when it is in the list and is a bot. */
  lemma {:induction false} BotsMembers(ps: Roster)
    ensures forall p :: p in Bots(ps) <==> p in ps && p.isBot
  {
    if |ps| > 0 {
      BotsMembers(ps[1..]);
      assert ps == [ps[0]] + ps[1..];
    }
  }

  /** Playing humans, spectating humans and bots partition the player list. */
  lemma {:induction false} PartitionIds(ps: Roster)
    ensures multiset(PlayerIds(Humans(ps, false))) + multiset(PlayerIds(Humans(ps, true)))
            + multiset(PlayerIds(Bots(ps))) == multiset(PlayerIds(ps))
  {
    if |ps| > 0 {
      var p := ps[0];
      PartitionIds(ps[1..]);
      assert PlayerIds(ps) == [p.id] + PlayerIds(ps[1..]);
      HumansStep(ps, false);
      HumansStep(ps, true);
      BotsStep(ps);
      AddToOnePart(multiset(PlayerIds(Humans(ps[1..], false))), multiset(PlayerIds(Humans(ps[1..], true))),
                   multiset(PlayerIds(Bots(ps[1..]))),
                   if !p.isBot && p.spectate == false then multiset{p.id} else multiset{},
                   if !p.isBot && p.spectate == true then multiset{p.id} else multiset{},
                   if p.isBot then multiset{p.id} else multiset{},
                   p.id);
    }
  }

  /** Adding an id to exactly one of three parts adds it to their union. */
  lemma AddToOnePart(a: multiset<PlayerId>, b: multiset<PlayerId>, c: multiset<PlayerId>,
                     x: multiset<PlayerId>, y: multiset<PlayerId>, z: multiset<PlayerId>, id: PlayerId)
    requires (x == multiset{id} && y == multiset{} && z == multiset{})
             || (x == multiset{} && y == multiset{id} && z == multiset{})
             || (x == multiset{} && y == multiset{} && z == multiset{id})
    ensures (x + a) + (y + b) + (z + c) == multiset{id} + (a + b + c)
  {
  }

  lemma HumansStep(ps: Roster, spectating: bool)
    requires |ps| > 0
    ensures multiset(PlayerIds(Humans(ps, spectating)))
            == (if !ps[0].isBot && ps[0].spectate == spectating then multiset{ps[0].id} else multiset{})
               + multiset(PlayerIds(Humans(ps[1..], spectating)))
  {
    if !ps[0].isBot && ps[0].spectate == spectating {
      assert PlayerIds([ps[0]] + Humans(ps[1..], spectating)) == [ps[0].id] + PlayerIds(Humans(ps[1..], spectating));
    }
  }

  lemma BotsStep(ps: Roster)
    requires |ps| > 0
    ensures multiset(PlayerIds(Bots(ps)))
            == (if ps[0].isBot then multiset{ps[0].id} else multiset{}) + multiset(PlayerIds(Bots(ps[1..])))
  {
    if ps[0].isBot {
      assert PlayerIds([ps[0]] + Bots(ps[1..])) == [ps[0].id] + PlayerIds(Bots(ps[1..]));
    }
  }

  /** Scored entries of humans. */
  function Rate(hs: Roster, t: Totals, totalPlayers: nat): (es: seq<Entry>)
    requires Floored(t) && totalPlayers >= 1
    ensures |es| == |hs|
    ensures forall i :: 0 <= i < |hs| ==>
              es[i] == Entry(hs[i].id, Score(hs[i], t, totalPlayers), hs[i].team) && 1 <= es[i].score <= 9
  {
    if |hs| == 0 then [] else [Entry(hs[0].id, Score(hs[0], t, totalPlayers), hs[0].team)] + Rate(hs[1..], t, totalPlayers)
  }

  /** Unscored entries of bots. */
  function BotEntries(bs: Roster): (es: seq<Entry>)
    ensures |es| == |bs| && forall i :: 0 <= i < |bs| ==> es[i] == Entry(bs[i].id, 0, bs[i].team)
  {
    if |bs| == 0 then [] else [Entry(bs[0].id, 0, bs[0].team)] + BotEntries(bs[1..])
  }

  predicate SortedDesc(es: seq<Entry>) {
    forall i, j :: 0 <= i < j < |es| ==> es[i].score >= es[j].score
  }

  /** Inserts `e` before the first entry whose score it reaches, so that it
      stays ahead of later entries with the same score. */
  function Insert(e: Entry, es: seq<Entry>): (r: seq<Entry>)
    requires SortedDesc(es)
    ensures SortedDesc(r)
    ensures multiset(r) == multiset(es) + multiset{e}
    ensures |r| == |es| + 1 && (r[0] == e || (|es| > 0 && r[0] == es[0]))
  {
    if |es| == 0 || e.score >= es[0].score then
      SortedCons(e, es);
      [e] + es
    else
      SortedTail(es);
      var rest := Insert(e, es[1..]);
      assert multiset([es[0]] + rest) == multiset{es[0]} + multiset(rest);
      assert multiset(es) == multiset{es[0]} + multiset(es[1..]) by {
        assert es == [es[0]] + es[1..];
      }
      assert es[0].score >= rest[0].score by {
        if rest[0] != e {
          assert rest[0] == es[1..][0] == es[1];
        }
      }
      SortedCons(es[0], rest);
      [es[0]] + rest
  }

  lemma SortedTail(es: seq<Entry>)
    requires SortedDesc(es) && |es| > 0
    ensures SortedDesc(es[1..])
  {
    forall i, j | 0 <= i < j < |es| - 1 ensures es[1..][i].score >= es[1..][j].score {
      assert es[1..][i] == es[i + 1] && es[1..][j] == es[j + 1];
    }
  }

  /** An entry scoring at least the head of a descending list can lead it. */
  lemma SortedCons(x: Entry, rest: seq<Entry>)
    requires SortedDesc(rest) && (|rest| == 0 || x.score >= rest[0].score)
    ensures SortedDesc([x] + rest)
  {
    var r := [x] + rest;
    forall i, j | 0 <= i < j < |r| ensures r[i].score >= r[j].score {
      if i == 0 {
        assert r[j] == rest[j - 1];
        assert rest[0].score >= rest[j - 1].score;
      } else {
        assert r[i] == rest[i - 1] && r[j] == rest[j - 1];
      }
    }
  }

  /** Stable sort by descending score. */
  function SortByScore(es: seq<Entry>): (r: seq<Entry>)
    ensures SortedDesc(r)
    ensures multiset(r) == multiset(es)
  {
    if |es| == 0 then []
    else
      assert es == [es[0]] + es[1..];
      Insert(es[0], SortByScore(es[1..]))
  }

  /** The entries of `es` with score `s`, in order. */
  function WithScore(es: seq<Entry>, s: int): seq<Entry> {
    if |es| == 0 then [] else (if es[0].score == s then [es[0]] else []) + WithScore(es[1..], s)
  }

  /** Insertion puts the new entry ahead of every entry with its score. */
  lemma {:induction false} InsertIsStable(e: Entry, es: seq<Entry>, s: int)
    requires SortedDesc(es)
    ensures WithScore(Insert(e, es), s) == (if e.score == s then [e] else []) + WithScore(es, s)
  {
    if |es| == 0 || e.score >= es[0].score {
      assert Insert(e, es) == [e] + es;
      WithScoreCons(e, es, s);
    } else {
      var rest := Insert(e, es[1..]);
      assert Insert(e, es) == [es[0]] + rest;
      WithScoreCons(es[0], rest, s);
      InsertIsStable(e, es[1..], s);
      assert es == [es[0]] + es[1..];
      WithScoreCons(es[0], es[1..], s);
      var w := WithScore(es[1..], s);
      if es[0].score == s {
        assert e.score != s;
        assert [es[0]] + ([] + w) == [] + ([es[0]] + w);
      } else if e.score == s {
        assert [] + ([e] + w) == [e] + ([] + w);
      }
    }
  }

  lemma WithScoreCons(x: Entry, rest: seq<Entry>, s: int)
    ensures WithScore([x] + rest, s) == (if x.score == s then [x] else []) + WithScore(rest, s)
  {
    assert ([x] + rest)[1..] == rest;
  }

  /** The sort is stable: the entries of each score keep their order. */
  lemma {:induction false} SortIsStable(es: seq<Entry>, s: int)
    ensures WithScore(SortByScore(es), s) == WithScore(es, s)
  {
    if |es| > 0 {
      SortIsStable(es[1..], s);
      InsertIsStable(es[0], SortByScore(es[1..]), s);
    }
  }

  /** Inserting adds exactly the inserted id. */
  lemma {:induction false} InsertIds(e: Entry, es: seq<Entry>)
    requires SortedDesc(es)
    ensures multiset(Ids(Insert(e, es))) == multiset(Ids(es)) + multiset{e.id}
  {
    if |es| > 0 && e.score < es[0].score {
      var rest := Insert(e, es[1..]);
      assert Insert(e, es) == [es[0]] + rest;
      assert multiset(Ids(rest)) == multiset(Ids(es[1..])) + multiset{e.id} by { InsertIds(e, es[1..]); }
      assert Ids(es) == [es[0].id] + Ids(es[1..]);
      assert Ids([es[0]] + rest) == [es[0].id] + Ids(rest);
    } else {
      assert Insert(e, es) == [e] + es;
      assert Ids([e] + es) == [e.id] + Ids(es);
    }
  }

  /** Sorting keeps the ids it is given. */
  lemma {:induction false} SortIds(es: seq<Entry>)
    ensures multiset(Ids(SortByScore(es))) == multiset(Ids(es))
  {
    if |es| > 0 {
      SortIds(es[1..]);
      InsertIds(es[0], SortByScore(es[1..]));
      assert Ids(es) == [es[0].id] + Ids(es[1..]);
    }
  }

  // ---------------------------------------------------------------------
  // Reshuffle: placement

  /** Humans and scores placed so far on the first and second team. */
  datatype Tally = Tally(firstHumans: nat, secondHumans: nat, firstScore: int, secondScore: int)

  function SumScores(es: seq<Entry>): int {
    if |es| == 0 then 0 else es[0].score + SumScores(es[1..])
  }

  /** How often `team` occurs in `teams`. */
  function CountTeam(teams: seq<TeamId>, team: TeamId): (n: nat)
    ensures n <= |teams|
  {
    if |teams| == 0 then 0 else (if teams[0] == team then 1 else 0) + CountTeam(teams[1..], team)
  }

  /** The greedy rule: the next human joins the first team while its score
      does not exceed the second's or while it has fewer than
      `second - maxDiff` humans; otherwise the second team. */
  predicate JoinsFirst(st: Tally, maxDiff: nat) {
    st.firstScore <= st.secondScore || st.firstHumans < st.secondHumans - maxDiff
  }

  /** The tally after entry `e` joins the first team (`toFirst`) or the second. */
  function Join(st: Tally, e: Entry, toFirst: bool): (r: Tally)
    ensures r.firstHumans + r.secondHumans == st.firstHumans + st.secondHumans + 1
    ensures r.firstScore + r.secondScore == st.firstScore + st.secondScore + e.score
    ensures toFirst ==> r.secondHumans == st.secondHumans && r.secondScore == st.secondScore
    ensures !toFirst ==> r.firstHumans == st.firstHumans && r.firstScore == st.firstScore
  {
    if toFirst then st.(firstHumans := st.firstHumans + 1, firstScore := st.firstScore + e.score)
    else st.(secondHumans := st.secondHumans + 1, secondScore := st.secondScore + e.score)
  }

  /** The greedy pass over playing humans, applying `JoinsFirst` to each
      in turn. */
  function Greedy(es: seq<Entry>, first: TeamId, second: TeamId, maxDiff: nat, st: Tally): (r: (seq<TeamId>, Tally))
    requires first != second
    ensures |r.0| == |es|
    ensures forall t :: t in r.0 ==> t == first || t == second
    ensures r.1.firstHumans == st.firstHumans + CountTeam(r.0, first)
    ensures r.1.secondHumans == st.secondHumans + CountTeam(r.0, second)
    ensures r.1.firstHumans + r.1.secondHumans == st.firstHumans + st.secondHumans + |es|
    ensures r.1.firstScore + r.1.secondScore == st.firstScore + st.secondScore + SumScores(es)
    ensures st.secondHumans <= st.firstHumans + maxDiff + 1 ==> r.1.secondHumans <= r.1.firstHumans + maxDiff + 1
  {
    if |es| == 0 then ([], st)
    else
      var toFirst := JoinsFirst(st, maxDiff);
      var rest := Greedy(es[1..], first, second, maxDiff, Join(st, es[0], toFirst));
      var team := if toFirst then first else second;
      assert ([team] + rest.0)[1..] == rest.0;
      ([team] + rest.0, rest.1)
  }

  /** The tally alone, as the greedy pass builds it: a reference that
      leaves the teams out. */
  function GreedyTally(es: seq<Entry>, maxDiff: nat, st: Tally): Tally {
    if |es| == 0 then st else GreedyTally(es[1..], maxDiff, Join(st, es[0], JoinsFirst(st, maxDiff)))
  }

  /** The greedy pass ends with the reference tally. */
  lemma {:induction false} GreedyTallyMatches(es: seq<Entry>, first: TeamId, second: TeamId, maxDiff: nat, st: Tally)
    requires first != second
    ensures Greedy(es, first, second, maxDiff, st).1 == GreedyTally(es, maxDiff, st)
  {
    if |es| > 0 {
      GreedyTallyMatches(es[1..], first, second, maxDiff, Join(st, es[0], JoinsFirst(st, maxDiff)));
    }
  }

  /** Each human, in order, joins the side the rule picks from the tally of
      the humans before it. */
  lemma {:induction false} GreedyTallyStep(es: seq<Entry>, maxDiff: nat, st: Tally, i: nat)
    requires i < |es|
    ensures var before := GreedyTally(es[..i], maxDiff, st);
            GreedyTally(es[..i + 1], maxDiff, st) == Join(before, es[i], JoinsFirst(before, maxDiff))
  {
    var st1 := Join(st, es[0], JoinsFirst(st, maxDiff));
    var tail := es[1..];
    var prefix := es[..i + 1];
    assert prefix[0] == es[0] && prefix[1..] == tail[..i];
    if i > 0 {
      GreedyTallyStep(tail, maxDiff, st1, i - 1);
      var shorter := es[..i];
      assert shorter[0] == es[0] && shorter[1..] == tail[..i - 1];
      assert tail[..i - 1 + 1] == tail[..i] && tail[i - 1] == es[i];
    } else {
      assert tail[..0] == [];
    }
  }

  /** The greedy pass decides each human by the rule applied to the tally of
      the humans before it. */
  lemma {:induction false} GreedyRule(es: seq<Entry>, first: TeamId, second: TeamId, maxDiff: nat, st: Tally, i: nat)
    requires first != second && i < |es|
    ensures Greedy(es, first, second, maxDiff, st).0[i]
            == if JoinsFirst(GreedyTally(es[..i], maxDiff, st), maxDiff) then first else second
  {
    var st1 := Join(st, es[0], JoinsFirst(st, maxDiff));
    GreedyTeamsUnfold(es, first, second, maxDiff, st);
    if i > 0 {
      var tail := es[1..];
      GreedyRule(tail, first, second, maxDiff, st1, i - 1);
      var shorter := es[..i];
      assert shorter[0] == es[0] && shorter[1..] == tail[..i - 1];
    } else {
      assert es[..0] == [];
    }
  }

  /** The first team of a non-empty pass is the rule's choice, and the rest
      is the pass over the tail from the updated tally. */
  lemma GreedyTeamsUnfold(es: seq<Entry>, first: TeamId, second: TeamId, maxDiff: nat, st: Tally)
    requires first != second && |es| > 0
    ensures var g := Greedy(es, first, second, maxDiff, st).0;
            && g[0] == (if JoinsFirst(st, maxDiff) then first else second)
            && g[1..] == Greedy(es[1..], first, second, maxDiff, Join(st, es[0], JoinsFirst(st, maxDiff))).0
  {
  }

  /** Humans scoring 1 keep joining the first team while its score trails
      by at least their number less one: the cap on the human difference only
      holds the second team back, never the first. */
  lemma {:induction false} LowScoresFillFirstTeam(es: seq<Entry>, first: TeamId, second: TeamId, maxDiff: nat, st: Tally)
    requires first != second
    requires forall i :: 0 <= i < |es| ==> es[i].score == 1
    requires st.firstScore + |es| <= st.secondScore + 1
    ensures Greedy(es, first, second, maxDiff, st).1
            == st.(firstHumans := st.firstHumans + |es|, firstScore := st.firstScore + |es|)
  {
    if |es| > 0 {
      LowScoresFillFirstTeam(es[1..], first, second, maxDiff,
                             st.(firstHumans := st.firstHumans + 1, firstScore := st.firstScore + 1));
    }
  }

  /** Scores 3, 3, 1, 1 split two against two with 4 points each; scores
      9, 8, 8 and seven 1s split eight humans against two. */
  lemma GreedyExamples(first: TeamId, second: TeamId)
    requires first != second
    ensures var es := [Entry(1, 3, first), Entry(2, 3, first), Entry(3, 1, first), Entry(4, 1, first)];
            Greedy(es, first, second, 0, Tally(0, 0, 0, 0)).1 == Tally(2, 2, 4, 4)
    ensures var ones := seq(7, i => Entry(10 + i, 1, first));
            var es := [Entry(1, 9, first), Entry(2, 8, first), Entry(3, 8, first)] + ones;
            Greedy(es, first, second, 0, Tally(0, 0, 0, 0)).1 == Tally(8, 2, 16, 16)
  {
    var es := [Entry(1, 3, first), Entry(2, 3, first), Entry(3, 1, first), Entry(4, 1, first)];
    assert es[1..][1..][1..][1..] == [];
    assert Greedy(es[3..], first, second, 0, Tally(2, 1, 4, 3)).1 == Tally(2, 2, 4, 4) by {
      assert es[3..][1..] == [];
    }
    assert es[1..][1..][1..] == es[3..];
    assert Greedy(es[2..], first, second, 0, Tally(1, 1, 3, 3)).1 == Tally(2, 2, 4, 4);
    assert es[1..][1..] == es[2..];
    assert Greedy(es[1..], first, second, 0, Tally(1, 0, 3, 0)).1 == Tally(2, 2, 4, 4);
    var ones := seq(7, i => Entry(10 + i, 1, first));
    var big := [Entry(1, 9, first), Entry(2, 8, first), Entry(3, 8, first)] + ones;
    LowScoresFillFirstTeam(ones, first, second, 0, Tally(1, 2, 9, 16));
    assert big[3..] == ones;
    assert big[1..][1..][1..] == ones;
    assert Greedy(big[1..][1..], first, second, 0, Tally(1, 1, 9, 8)).1 == Tally(8, 2, 16, 16);
    assert Greedy(big[1..], first, second, 0, Tally(1, 0, 9, 0)).1 == Tally(8, 2, 16, 16);
  }

  /** The other of the two teams. */
  function Other(team: TeamId): TeamId {
    if team == BLUE then RED else BLUE
  }

  /** Strict alternation starting with `a`. */
  function Alternate(n: nat, a: TeamId, b: TeamId): (teams: seq<TeamId>)
    ensures |teams| == n
    ensures forall i :: 0 <= i < n ==> teams[i] == if i % 2 == 0 then a else b
  {
    if n == 0 then [] else [a] + Alternate(n - 1, b, a)
  }

  /** In an alternation of two different teams the first gets the extra
      place when the count is odd. */
  lemma {:induction false} AlternateCounts(n: nat, a: TeamId, b: TeamId)
    requires a != b
    ensures CountTeam(Alternate(n, a, b), a) == (n + 1) / 2
    ensures CountTeam(Alternate(n, a, b), b) == n / 2
  {
    if n > 0 {
      AlternateCounts(n - 1, b, a);
      assert Alternate(n, a, b)[1..] == Alternate(n - 1, b, a);
    }
  }

  /** An alternation of `n` followed by one of `m` that continues where the
      first stopped is a single alternation of `n + m`. */
  lemma AlternateSplit(n: nat, m: nat, a: TeamId, b: TeamId)
    ensures Alternate(n, a, b) + Alternate(m, if n % 2 == 0 then a else b, if n % 2 == 0 then b else a)
            == Alternate(n + m, a, b)
  {
    var front := Alternate(n, a, b);
    var back := Alternate(m, if n % 2 == 0 then a else b, if n % 2 == 0 then b else a);
    var all := Alternate(n + m, a, b);
    forall i | 0 <= i < n + m
      ensures (front + back)[i] == all[i]
    {
      if i >= n {
        assert (front + back)[i] == back[i - n];
        assert (i - n) % 2 == 0 <==> i % 2 == n % 2;
      }
    }
  }

  /** Ids of the entries whose assigned team differs from their current one,
      in order. */
  function Changed(es: seq<Entry>, teams: seq<TeamId>): (ids: seq<PlayerId>)
    requires |es| == |teams|
    ensures forall id :: id in ids <==> exists i :: 0 <= i < |es| && es[i].id == id && es[i].team != teams[i]
  {
    if |es| == 0 then []
    else
      var rest := Changed(es[1..], teams[1..]);
      assert forall i :: 0 <= i < |es| - 1 ==> es[1..][i] == es[i + 1] && teams[1..][i] == teams[i + 1];
      if es[0].team != teams[0] then [es[0].id] + rest else rest
  }

  /** The re-team list holds each id at most as often as the entries do. */
  lemma {:induction false} ChangedIdsFromEntries(es: seq<Entry>, teams: seq<TeamId>)
    requires |es| == |teams|
    ensures multiset(Changed(es, teams)) <= multiset(Ids(es))
  {
    if |es| > 0 {
      ChangedIdsFromEntries(es[1..], teams[1..]);
      assert Ids(es) == [es[0].id] + Ids(es[1..]);
    }
  }

  /** One team-update event per entry. */
  function Updates(es: seq<Entry>, teams: seq<TeamId>): (events: seq<Event>)
    requires |es| == |teams|
    ensures |events| == |es| && forall i :: 0 <= i < |es| ==> events[i] == PlayersUpdateTeam(es[i].id, teams[i])
  {
    if |es| == 0 then [] else [PlayersUpdateTeam(es[0].id, teams[0])] + Updates(es[1..], teams[1..])
  }

  /** Team-update events for the entries whose team changes only. */
  function ChangedUpdates(es: seq<Entry>, teams: seq<TeamId>): (events: seq<Event>)
    requires |es| == |teams|
    ensures forall e :: e in events <==>
              exists i :: 0 <= i < |es| && es[i].team != teams[i] && e == PlayersUpdateTeam(es[i].id, teams[i])
  {
    if |es| == 0 then []
    else
      var rest := ChangedUpdates(es[1..], teams[1..]);
      assert forall i :: 0 <= i < |es| - 1 ==> es[1..][i] == es[i + 1] && teams[1..][i] == teams[i + 1];
      if es[0].team != teams[0] then [PlayersUpdateTeam(es[0].id, teams[0])] + rest else rest
  }

  /** The positions from `i` on whose team changes, in increasing order. */
  function ChangedFrom(es: seq<Entry>, teams: seq<TeamId>, i: nat): (ks: seq<nat>)
    requires |es| == |teams| && i <= |es|
    ensures forall k :: 0 <= k < |ks| ==> i <= ks[k] < |es| && es[ks[k]].team != teams[ks[k]]
    ensures forall k, l :: 0 <= k < l < |ks| ==> ks[k] < ks[l]
    ensures forall j :: i <= j < |es| && es[j].team != teams[j] ==> j in ks
    decreases |es| - i
  {
    if i == |es| then []
    else if es[i].team != teams[i] then [i] + ChangedFrom(es, teams, i + 1)
    else ChangedFrom(es, teams, i + 1)
  }

  /** The re-team list and the team-update events follow the entries'
      order: the k-th id and the k-th event belong to the k-th entry whose
      team changes, each changed entry contributing exactly once. */
  lemma ChangedInOrder(es: seq<Entry>, teams: seq<TeamId>)
    requires |es| == |teams|
    ensures var ks := ChangedFrom(es, teams, 0);
            && |Changed(es, teams)| == |ks| && |ChangedUpdates(es, teams)| == |ks|
            && forall k :: 0 <= k < |ks| ==>
                 && Changed(es, teams)[k] == es[ks[k]].id
                 && ChangedUpdates(es, teams)[k] == PlayersUpdateTeam(es[ks[k]].id, teams[ks[k]])
  {
    ChangedIdsInOrder(es, teams, 0);
    ChangedUpdatesInOrder(es, teams, 0);
    assert es[0..] == es && teams[0..] == teams;
  }

  /** `ChangedInOrder` for the entries from position `i` on. */
  lemma {:induction false} ChangedIdsInOrder(es: seq<Entry>, teams: seq<TeamId>, i: nat)
    requires |es| == |teams| && i <= |es|
    ensures var ks := ChangedFrom(es, teams, i); var ids := Changed(es[i..], teams[i..]);
            |ids| == |ks| && forall k :: 0 <= k < |ks| ==> ids[k] == es[ks[k]].id
    decreases |es| - i
  {
    if i < |es| {
      ChangedIdsInOrder(es, teams, i + 1);
      var tail := ChangedFrom(es, teams, i + 1);
      var rest := Changed(es[i + 1..], teams[i + 1..]);
      assert es[i..][1..] == es[i + 1..] && teams[i..][1..] == teams[i + 1..];
      assert es[i..][0] == es[i] && teams[i..][0] == teams[i];
      if es[i].team != teams[i] {
        ChangedCons(es[i..], teams[i..]);
        assert Changed(es[i..], teams[i..]) == [es[i].id] + rest;
        assert ChangedFrom(es, teams, i) == [i] + tail;
      } else {
        ChangedCons(es[i..], teams[i..]);
        assert Changed(es[i..], teams[i..]) == rest;
      }
    }
  }

  lemma {:induction false} ChangedUpdatesInOrder(es: seq<Entry>, teams: seq<TeamId>, i: nat)
    requires |es| == |teams| && i <= |es|
    ensures var ks := ChangedFrom(es, teams, i); var us := ChangedUpdates(es[i..], teams[i..]);
            |us| == |ks| && forall k :: 0 <= k < |ks| ==> us[k] == PlayersUpdateTeam(es[ks[k]].id, teams[ks[k]])
    decreases |es| - i
  {
    if i < |es| {
      ChangedUpdatesInOrder(es, teams, i + 1);
      var tail := ChangedFrom(es, teams, i + 1);
      var rest := ChangedUpdates(es[i + 1..], teams[i + 1..]);
      assert es[i..][1..] == es[i + 1..] && teams[i..][1..] == teams[i + 1..];
      assert es[i..][0] == es[i] && teams[i..][0] == teams[i];
      ChangedUpdatesCons(es[i..], teams[i..]);
      if es[i].team != teams[i] {
        assert ChangedUpdates(es[i..], teams[i..]) == [PlayersUpdateTeam(es[i].id, teams[i])] + rest;
        assert ChangedFrom(es, teams, i) == [i] + tail;
      } else {
        assert ChangedUpdates(es[i..], teams[i..]) == rest;
      }
    }
  }

  lemma ChangedCons(es: seq<Entry>, teams: seq<TeamId>)
    requires |es| == |teams| && |es| > 0
    ensures Changed(es, teams)
            == (if es[0].team != teams[0] then [es[0].id] else []) + Changed(es[1..], teams[1..])
  {
  }

  lemma ChangedUpdatesCons(es: seq<Entry>, teams: seq<TeamId>)
    requires |es| == |teams| && |es| > 0
    ensures ChangedUpdates(es, teams)
            == (if es[0].team != teams[0] then [PlayersUpdateTeam(es[0].id, teams[0])] else [])
               + ChangedUpdates(es[1..], teams[1..])
  {
  }

  /** Human and bot counts and score totals per team, as announced. */
  datatype Summary = Summary(blueHumans: nat, redHumans: nat, blueBots: nat, redBots: nat, blueScore: int, redScore: int)

  function SummaryText(s: Summary): string {
    "Teams reshuffled: " + Text.IntToString(s.blueHumans) + " vs " + Text.IntToString(s.redHumans) + " humans, "
    + Text.IntToString(s.blueBots) + " vs " + Text.IntToString(s.redBots) + " bots, "
    + Text.IntToString(s.blueHumans + s.blueBots) + " vs " + Text.IntToString(s.redHumans + s.redBots) + " total. "
    + "Balance scores: " + Text.IntToString(s.blueScore + s.blueBots) + " vs "
    + Text.IntToString(s.redScore + s.redBots) + "."
  }

  /** An announcement: 2 vs 1 humans and 1 vs 2 bots with human scores 5 and
      3. The totals add humans and bots, and the balance scores add each
      team's bot count to its human score. */
  lemma SummaryTextExample()
    ensures SummaryText(Summary(2, 1, 1, 2, 5, 3))
            == "Teams reshuffled: " + "2" + " vs " + "1" + " humans, " + "1" + " vs " + "2" + " bots, "
               + "3" + " vs " + "3" + " total. " + "Balance scores: " + "6" + " vs " + "5" + "."
  {
    assert Text.IntToString(1) == "1" && Text.IntToString(2) == "2" && Text.IntToString(3) == "3";
    assert Text.IntToString(5) == "5" && Text.IntToString(6) == "6";
  }

  /** The outcome of a reshuffle: the three lists in placement order
      (playing humans and spectators by descending score, bots in list
      order), the team each entry is given, the greedy tally, the re-team
      list, the summary and the emitted events. */
  datatype Reshuffle = Reshuffle(
    playing: seq<Entry>, spectating: seq<Entry>, bots: seq<Entry>,
    humanTeams: seq<TeamId>, spectatorTeams: seq<TeamId>, botTeams: seq<TeamId>,
    tally: Tally, reteam: seq<PlayerId>, summary: Summary, events: seq<Event>)
  {
    function Entries(): seq<Entry> { playing + spectating + bots }
    function Teams(): seq<TeamId> { humanTeams + spectatorTeams + botTeams }
  }

  /** The three scored and sorted lists of a non-empty player list. */
  function Lists(ps: Roster): (r: (seq<Entry>, seq<Entry>, seq<Entry>))
    requires |ps| >= 1
    ensures Scored(r.0) && Scored(r.1) && SortedDesc(r.0) && SortedDesc(r.1)
    ensures multiset(Ids(r.0 + r.1 + r.2)) == multiset(PlayerIds(ps))
    ensures var totals := FloorDenominators(Accumulate(ps));
            && multiset(r.0) == multiset(Rate(Humans(ps, false), totals, |ps|))
            && multiset(r.1) == multiset(Rate(Humans(ps, true), totals, |ps|))
            && (forall s :: WithScore(r.0, s) == WithScore(Rate(Humans(ps, false), totals, |ps|), s))
            && (forall s :: WithScore(r.1, s) == WithScore(Rate(Humans(ps, true), totals, |ps|), s))
    ensures r.2 == BotEntries(Bots(ps))
  {
    var totals := FloorDenominators(Accumulate(ps));
    EntriesCoverPlayers(ps, totals);
    SortKeepsScores(Rate(Humans(ps, false), totals, |ps|));
    SortKeepsScores(Rate(Humans(ps, true), totals, |ps|));
    forall s | true
      ensures WithScore(SortByScore(Rate(Humans(ps, false), totals, |ps|)), s)
              == WithScore(Rate(Humans(ps, false), totals, |ps|), s)
      ensures WithScore(SortByScore(Rate(Humans(ps, true), totals, |ps|)), s)
              == WithScore(Rate(Humans(ps, true), totals, |ps|), s)
    {
      SortIsStable(Rate(Humans(ps, false), totals, |ps|), s);
      SortIsStable(Rate(Humans(ps, true), totals, |ps|), s);
    }
    (SortByScore(Rate(Humans(ps, false), totals, |ps|)),
     SortByScore(Rate(Humans(ps, true), totals, |ps|)),
     BotEntries(Bots(ps)))
  }

  /** Teams of the spectators and bots: strict alternation, the spectators
      starting with the team that has fewer humans after the greedy pass
      (the first team on a tie) and the bots continuing the alternation. */
  function Alternation(spectators: nat, bots: nat, first: TeamId, tally: Tally): (r: (seq<TeamId>, seq<TeamId>))
    requires first == BLUE || first == RED
    ensures |r.0| == spectators && |r.1| == bots
    ensures forall t :: t in r.0 + r.1 ==> t == BLUE || t == RED
    ensures spectators > 0 ==> r.0[0] == if tally.firstHumans <= tally.secondHumans then first else Other(first)
    ensures -1 <= CountTeam(r.1, BLUE) - CountTeam(r.1, RED) <= 1
    ensures CountTeam(r.1, BLUE) + CountTeam(r.1, RED) == bots
  {
    var spectatorStart := if tally.firstHumans <= tally.secondHumans then first else Other(first);
    var botStart := if spectators % 2 == 0 then spectatorStart else Other(spectatorStart);
    AlternateCounts(bots, botStart, Other(botStart));
    (Alternate(spectators, spectatorStart, Other(spectatorStart)), Alternate(bots, botStart, Other(botStart)))
  }

  /** Spectators and then bots form one strict alternation: the bots
      continue where the spectators stopped. */
  lemma AlternationIsStrict(spectators: nat, bots: nat, first: TeamId, tally: Tally)
    requires first == BLUE || first == RED
    ensures var r := Alternation(spectators, bots, first, tally);
            var start := if tally.firstHumans <= tally.secondHumans then first else Other(first);
            r.0 + r.1 == Alternate(spectators + bots, start, Other(start))
  {
    var start := if tally.firstHumans <= tally.secondHumans then first else Other(first);
    AlternateSplit(spectators, bots, start, Other(start));
    assert Other(Other(start)) == start;
  }

  /** Team-update events (every playing human, then the spectators and bots
      whose team changes), the re-team list, the reshuffle notice and the
      summary message. */
  function ReshuffleEvents(r: Reshuffle): (events: seq<Event>)
    requires |r.playing| == |r.humanTeams| && |r.spectating| == |r.spectatorTeams| && |r.bots| == |r.botTeams|
    ensures |events| >= |r.playing| + 3
    ensures forall i :: 0 <= i < |r.playing| ==> events[i] == PlayersUpdateTeam(r.playing[i].id, r.humanTeams[i])
    ensures events[|r.playing|..|events| - 3] == ChangedUpdates(r.spectating + r.bots, r.spectatorTeams + r.botTeams)
    ensures events[|events| - 3..] == [PlayerReteam(r.reteam), TeamsReshuffled, ChatServerPublic(SummaryText(r.summary))]
  {
    var updates := Updates(r.playing, r.humanTeams);
    var changed := ChangedUpdates(r.spectating + r.bots, r.spectatorTeams + r.botTeams);
    var tail := [PlayerReteam(r.reteam), TeamsReshuffled, ChatServerPublic(SummaryText(r.summary))];
    var events := updates + changed + tail;
    assert events[|r.playing|..|events| - 3] == changed;
    assert events[|events| - 3..] == tail;
    events
  }

  /** The teams given to the playing humans (greedy pass), the spectators
      and the bots (alternation), and the greedy tally. */
  function Assign(playing: seq<Entry>, spectators: nat, bots: nat, first: TeamId)
    : (a: (seq<TeamId>, seq<TeamId>, seq<TeamId>, Tally))
    requires first == BLUE || first == RED
    ensures |a.0| == |playing| && |a.1| == spectators && |a.2| == bots
    ensures forall t :: t in a.0 + a.1 + a.2 ==> t == BLUE || t == RED
    ensures a.3.secondHumans <= a.3.firstHumans + |playing| % 2 + 1
    ensures a.3.firstHumans + a.3.secondHumans == |playing|
    ensures a.3.firstScore + a.3.secondScore == SumScores(playing)
    ensures spectators > 0 ==> a.1[0] == if a.3.firstHumans <= a.3.secondHumans then first else Other(first)
    ensures CountTeam(a.2, BLUE) + CountTeam(a.2, RED) == bots
    ensures -1 <= CountTeam(a.2, BLUE) - CountTeam(a.2, RED) <= 1
  {
    var (humanTeams, tally) := Greedy(playing, first, Other(first), |playing| % 2, Tally(0, 0, 0, 0));
    var (spectatorTeams, botTeams) := Alternation(spectators, bots, first, tally);
    assert forall t :: t in humanTeams + spectatorTeams + botTeams ==> t == BLUE || t == RED by {
      assert forall t :: t in humanTeams ==> t == first || t == Other(first);
      assert forall t :: t in spectatorTeams + botTeams ==> t == BLUE || t == RED;
      assert humanTeams + spectatorTeams + botTeams == humanTeams + (spectatorTeams + botTeams);
    }
    (humanTeams, spectatorTeams, botTeams, tally)
  }

  /** The playing humans' teams and the tally are those of the greedy pass
      from an empty tally, with a human difference allowance of the count's
      parity. */
  lemma AssignFollowsGreedy(playing: seq<Entry>, spectators: nat, bots: nat, first: TeamId)
    requires first == BLUE || first == RED
    ensures var a := Assign(playing, spectators, bots, first);
            (a.0, a.3) == Greedy(playing, first, Other(first), |playing| % 2, Tally(0, 0, 0, 0))
  {
  }

  /** Places sorted lists on the two teams and announces the result. */
  function Place(playing: seq<Entry>, spectating: seq<Entry>, bots: seq<Entry>, first: TeamId): (r: Reshuffle)
    requires first == BLUE || first == RED
    ensures r.playing == playing && r.spectating == spectating && r.bots == bots
    ensures |r.humanTeams| == |playing| && |r.spectatorTeams| == |spectating| && |r.botTeams| == |bots|
    ensures forall t :: t in r.Teams() ==> t == BLUE || t == RED
    ensures r.tally.secondHumans <= r.tally.firstHumans + |playing| % 2 + 1
    ensures r.tally.firstHumans + r.tally.secondHumans == |playing|
    ensures r.tally.firstScore + r.tally.secondScore == SumScores(playing)
    ensures |spectating| > 0 ==>
              r.spectatorTeams[0] == if r.tally.firstHumans <= r.tally.secondHumans then first else Other(first)
    ensures r.summary.blueBots + r.summary.redBots == |bots|
    ensures -1 <= r.summary.blueBots - r.summary.redBots <= 1
    ensures first == BLUE ==> r.summary.blueHumans == r.tally.firstHumans && r.summary.redHumans == r.tally.secondHumans
    ensures first == RED ==> r.summary.blueHumans == r.tally.secondHumans && r.summary.redHumans == r.tally.firstHumans
    ensures r.reteam == Changed(r.Entries(), r.Teams())
    ensures r.events == ReshuffleEvents(r)
    ensures (r.humanTeams, r.spectatorTeams, r.botTeams, r.tally) == Assign(playing, |spectating|, |bots|, first)
    ensures (r.humanTeams, r.tally) == Greedy(playing, first, Other(first), |playing| % 2, Tally(0, 0, 0, 0))
    ensures r.summary.blueBots == CountTeam(r.botTeams, BLUE) && r.summary.redBots == CountTeam(r.botTeams, RED)
    ensures r.summary.blueScore == (if first == BLUE then r.tally.firstScore else r.tally.secondScore)
    ensures r.summary.redScore == (if first == BLUE then r.tally.secondScore else r.tally.firstScore)
  {
    AssignFollowsGreedy(playing, |spectating|, |bots|, first);
    var (humanTeams, spectatorTeams, botTeams, tally) := Assign(playing, |spectating|, |bots|, first);
    var blueBots := CountTeam(botTeams, BLUE);
    var redBots := CountTeam(botTeams, RED);
    var summary :=
      if first == BLUE then Summary(tally.firstHumans, tally.secondHumans, blueBots, redBots, tally.firstScore, tally.secondScore)
      else Summary(tally.secondHumans, tally.firstHumans, blueBots, redBots, tally.secondScore, tally.firstScore);
    var entries := playing + spectating + bots;
    var teams := humanTeams + spectatorTeams + botTeams;
    var r := Reshuffle(playing, spectating, bots, humanTeams, spectatorTeams, botTeams,
                       tally, Changed(entries, teams), summary, []);
    var r' := r.(events := ReshuffleEvents(r));
    assert r'.Entries() == entries && r'.Teams() == teams;
    r'
  }

  /** The spectators and then the bots strictly alternate, starting from the
      team with fewer humans (the first team on a tie). */
  predicate PlacedAlternately(spectatorTeams: seq<TeamId>, botTeams: seq<TeamId>, tally: Tally, first: TeamId) {
    var start := if tally.firstHumans <= tally.secondHumans then first else Other(first);
    spectatorTeams + botTeams == Alternate(|spectatorTeams| + |botTeams|, start, Other(start))
  }

  /** Spectators and then bots are dealt out in one strict alternation that
      starts with the team having fewer humans after the greedy pass (the
      first team on a tie). */
  lemma PlaceAlternates(playing: seq<Entry>, spectating: seq<Entry>, bots: seq<Entry>, first: TeamId)
    requires first == BLUE || first == RED
    ensures var r := Place(playing, spectating, bots, first);
            |r.spectatorTeams| == |spectating| && |r.botTeams| == |bots|
            && PlacedAlternately(r.spectatorTeams, r.botTeams, r.tally, first)
  {
    var r := Place(playing, spectating, bots, first);
    AlternatesWhenAssigned(playing, |spectating|, |bots|, first, r.spectatorTeams, r.botTeams, r.tally);
  }

  lemma AlternatesWhenAssigned(playing: seq<Entry>, spectators: nat, bots: nat, first: TeamId,
                               spectatorTeams: seq<TeamId>, botTeams: seq<TeamId>, tally: Tally)
    requires first == BLUE || first == RED
    requires var a := Assign(playing, spectators, bots, first);
             spectatorTeams == a.1 && botTeams == a.2 && tally == a.3
    ensures |spectatorTeams| == spectators && |botTeams| == bots
    ensures PlacedAlternately(spectatorTeams, botTeams, tally, first)
  {
    AssignAlternates(playing, spectators, bots, first);
  }

  lemma AssignAlternates(playing: seq<Entry>, spectators: nat, bots: nat, first: TeamId)
    requires first == BLUE || first == RED
    ensures var a := Assign(playing, spectators, bots, first);
            var start := if a.3.firstHumans <= a.3.secondHumans then first else Other(first);
            a.1 + a.2 == Alternate(spectators + bots, start, Other(start))
  {
    var g := Greedy(playing, first, Other(first), |playing| % 2, Tally(0, 0, 0, 0));
    var alt := Alternation(spectators, bots, first, g.1);
    assert Assign(playing, spectators, bots, first) == (g.0, alt.0, alt.1, g.1);
    AlternationIsStrict(spectators, bots, first, g.1);
  }

  /** The reshuffle, with the first team (drawn at random in the source) as
      a parameter. An empty player list gives no events. */
  function OnShufflePlayers(ps: Roster, firstTeam: TeamId): (r: Reshuffle)
    requires firstTeam == BLUE || firstTeam == RED
    ensures |ps| == 0 ==> r.events == [] && r.Entries() == []
    ensures |ps| > 0 ==> (r.playing, r.spectating, r.bots) == Lists(ps)
    ensures |ps| > 0 ==> r == Place(r.playing, r.spectating, r.bots, firstTeam)
    ensures |r.humanTeams| == |r.playing| && |r.spectatorTeams| == |r.spectating| && |r.botTeams| == |r.bots|
    ensures r.reteam == Changed(r.Entries(), r.Teams())
  {
    if |ps| == 0 then Reshuffle([], [], [], [], [], [], Tally(0, 0, 0, 0), [], Summary(0, 0, 0, 0, 0, 0), [])
    else
      var lists := Lists(ps);
      var r := Place(lists.0, lists.1, lists.2, firstTeam);
      assert r.playing == lists.0 && r.spectating == lists.1 && r.bots == lists.2;
      r
  }

  /** Every placed entry stands for a player of the list with its id and
      pre-shuffle team: the playing list holds only non-spectating humans
      and the spectating list only spectating humans, each with its score;
      the bot list holds only bots, unscored. */
  lemma EntriesComeFromPlayers(ps: Roster)
    requires |ps| >= 1
    ensures var (playing, spectating, bots) := Lists(ps);
            var totals := FloorDenominators(Accumulate(ps));
            && (forall e :: e in playing ==> exists p :: p in ps && !p.isBot && p.spectate == false
                                                 && e == Entry(p.id, Score(p, totals, |ps|), p.team))
            && (forall e :: e in spectating ==> exists p :: p in ps && !p.isBot && p.spectate == true
                                                    && e == Entry(p.id, Score(p, totals, |ps|), p.team))
            && (forall e :: e in bots ==> exists p :: p in ps && p.isBot && e == Entry(p.id, 0, p.team))
  {
    var totals := FloorDenominators(Accumulate(ps));
    var lists := Lists(ps);
    RatedFromHumans(ps, false, totals, |ps|, lists.0);
    RatedFromHumans(ps, true, totals, |ps|, lists.1);
    BotEntriesFromBots(ps);
  }

  lemma RatedFromHumans(ps: Roster, spectating: bool, totals: Totals, n: nat, es: seq<Entry>)
    requires Floored(totals) && n >= 1
    requires multiset(es) == multiset(Rate(Humans(ps, spectating), totals, n))
    ensures forall e :: e in es ==> exists p :: p in ps && !p.isBot && p.spectate == spectating
                                                && e == Entry(p.id, Score(p, totals, n), p.team)
  {
    var hs := Humans(ps, spectating);
    HumansMembers(ps, spectating);
    forall e | e in es
      ensures exists p :: p in ps && !p.isBot && p.spectate == spectating && e == Entry(p.id, Score(p, totals, n), p.team)
    {
      assert e in multiset(Rate(hs, totals, n));
      var i :| 0 <= i < |hs| && Rate(hs, totals, n)[i] == e;
      assert hs[i] in hs;
    }
  }

  lemma BotEntriesFromBots(ps: Roster)
    ensures forall e :: e in BotEntries(Bots(ps)) ==> exists p :: p in ps && p.isBot && e == Entry(p.id, 0, p.team)
  {
    var bs := Bots(ps);
    BotsMembers(ps);
    forall e | e in BotEntries(bs)
      ensures exists p :: p in ps && p.isBot && e == Entry(p.id, 0, p.team)
    {
      var i :| 0 <= i < |bs| && BotEntries(bs)[i] == e;
      assert bs[i] in bs;
    }
  }

  /** With distinct ids in the player list, the re-team list names every
      entity at most once. */
  lemma ReteamAtMostOnce(ps: Roster, firstTeam: TeamId, id: PlayerId)
    requires firstTeam == BLUE || firstTeam == RED
    requires UniqueIds(ps)
    ensures multiset(OnShufflePlayers(ps, firstTeam).reteam)[id] <= 1
  {
    if |ps| > 0 {
      ReteamWithinIds(ps, firstTeam);
      DistinctPlayerIds(ps, id);
    }
  }

  /** The re-team list names ids of the player list only, each at most as
      often as the list does. */
  lemma ReteamWithinIds(ps: Roster, firstTeam: TeamId)
    requires firstTeam == BLUE || firstTeam == RED
    requires |ps| > 0
    ensures multiset(OnShufflePlayers(ps, firstTeam).reteam) <= multiset(PlayerIds(ps))
  {
    var r := OnShufflePlayers(ps, firstTeam);
    ReteamIdsOfEntries(r);
    var lists := Lists(ps);
    assert r.Entries() == lists.0 + lists.1 + lists.2;
  }

  /** A re-team list computed from a placement's entries names only their ids. */
  lemma ReteamIdsOfEntries(r: Reshuffle)
    requires |r.humanTeams| == |r.playing| && |r.spectatorTeams| == |r.spectating| && |r.botTeams| == |r.bots|
    requires r.reteam == Changed(r.Entries(), r.Teams())
    ensures multiset(r.reteam) <= multiset(Ids(r.Entries()))
  {
    ChangedIdsFromEntries(r.Entries(), r.Teams());
  }

  lemma {:induction false} DistinctPlayerIds(ps: Roster, id: PlayerId)
    requires UniqueIds(ps)
    ensures multiset(PlayerIds(ps))[id] <= 1
  {
    if |ps| > 0 {
      DistinctPlayerIds(ps[1..], id);
      assert PlayerIds(ps) == [ps[0].id] + PlayerIds(ps[1..]);
      if ps[0].id == id {
        assert id !in PlayerIds(ps[1..]) by {
          forall i | 0 <= i < |ps| - 1
            ensures PlayerIds(ps[1..])[i] != id
          {
            assert ps[1..][i] == ps[i + 1];
          }
        }
      }
    }
  }

  /** Every player is placed exactly once: playing humans, spectating
      humans and bots together carry the ids of the whole list. */
  lemma EntriesCoverPlayers(ps: Roster, totals: Totals)
    requires Floored(totals) && |ps| >= 1
    ensures multiset(Ids(SortByScore(Rate(Humans(ps, false), totals, |ps|)) + SortByScore(Rate(Humans(ps, true), totals, |ps|))
                         + BotEntries(Bots(ps)))) == multiset(PlayerIds(ps))
  {
    var playing := SortByScore(Rate(Humans(ps, false), totals, |ps|));
    var spectating := SortByScore(Rate(Humans(ps, true), totals, |ps|));
    var bots := BotEntries(Bots(ps));
    assert multiset(Ids(playing)) == multiset(PlayerIds(Humans(ps, false))) by {
      IdsOfRate(Humans(ps, false), totals, |ps|);
      SortIds(Rate(Humans(ps, false), totals, |ps|));
    }
    assert multiset(Ids(spectating)) == multiset(PlayerIds(Humans(ps, true))) by {
      IdsOfRate(Humans(ps, true), totals, |ps|);
      SortIds(Rate(Humans(ps, true), totals, |ps|));
    }
    assert Ids(bots) == PlayerIds(Bots(ps)) by { IdsOfBots(Bots(ps)); }
    assert Ids(playing + spectating + bots) == Ids(playing) + Ids(spectating) + Ids(bots) by {
      IdsConcat(playing, spectating);
      IdsConcat(playing + spectating, bots);
    }
    PartitionIds(ps);
  }

  /** Every score lies in [1, 9]. */
  predicate Scored(es: seq<Entry>) {
    forall i :: 0 <= i < |es| ==> 1 <= es[i].score <= 9
  }

  /** Sorting keeps the scores it is given. */
  lemma SortKeepsScores(es: seq<Entry>)
    requires Scored(es)
    ensures Scored(SortByScore(es))
  {
    var r := SortByScore(es);
    forall i | 0 <= i < |r|
      ensures 1 <= r[i].score <= 9
    {
      assert r[i] in multiset(es);
    }
  }

  lemma {:induction false} IdsOfRate(hs: Roster, t: Totals, n: nat)
    requires Floored(t) && n >= 1
    ensures Ids(Rate(hs, t, n)) == PlayerIds(hs)
  {
  }

  lemma {:induction false} IdsOfBots(bs: Roster)
    ensures Ids(BotEntries(bs)) == PlayerIds(bs)
  {
  }

  lemma IdsConcat(a: seq<Entry>, b: seq<Entry>)
    ensures Ids(a + b) == Ids(a) + Ids(b)
  {
  }
}

=== FILE: matches.dfy ===
/** The infection-mode match lifecycle: a once-per-second countdown that
    requests a team shuffle and starts the match, and the kill handler that
    ends the match when a team has no living player or otherwise schedules
    the conversion of a killed survivor to the infected team. */
module Matches {
  import opened Players
  import opened Events
  import Text

  /** The match record: sequence number, activity, winner and start time. */
  datatype Match = Match(current: int, isActive: bool, winnerTeam: Option<TeamId>, start: int)

  /** The match record together with the countdown counter of the system. */
  datatype Lifecycle = Lifecycle(game: Match, timeout: int)

  /** Countdown length in seconds; development servers use the shorter one. */
  const TIMEOUT_MAX := 30
  const DEV_TIMEOUT_MAX := 10

  /** Milliseconds per second, for message durations. */
  const MS_PER_SEC := 1000

  /** The tick at which the shuffle is requested. */
  const SHUFFLE_TICK := 5

  /** The state at server start: match 0, inactive, countdown at 0. */
  function Initial(): (s: Lifecycle)
    ensures s.game.current == 0 && !s.game.isActive && s.timeout == 0
  {
    Lifecycle(Match(0, false, None, 0), 0)
  }

  datatype TickResult = TickResult(state: Lifecycle, players: Roster, events: seq<Event>)

  /** Per-match reset of a player at match start. */
  function ResetForMatch(p: Player): (q: Player)
    ensures q.delayedRespawn && q.kills.currentmatch == 0
    ensures q.times.activePlayingBlue == 0 && q.times.activePlayingRed == 0
    ensures q == p.(delayedRespawn := true,
                    times := p.times.(activePlayingBlue := 0, activePlayingRed := 0),
                    kills := p.kills.(currentmatch := 0))
  {
    p.(delayedRespawn := true,
       times := p.times.(activePlayingBlue := 0, activePlayingRed := 0),
       kills := p.kills.(currentmatch := 0))
  }

  /** Every player reset, in list order, with one respawn request each. */
  function ResetAll(ps: Roster): (r: (Roster, seq<Event>))
    ensures |r.0| == |ps| && |r.1| == |ps|
    ensures forall i :: 0 <= i < |ps| ==> r.0[i] == ResetForMatch(ps[i])
    ensures forall i :: 0 <= i < |ps| ==> r.1[i] == PlayersRespawn(ps[i].id)
  {
    if |ps| == 0 then ([], [])
    else
      var rest := ResetAll(ps[1..]);
      ([ResetForMatch(ps[0])] + rest.0, [PlayersRespawn(ps[0].id)] + rest.1)
  }

  /** The countdown text near the end. The number is computed against 30
      whatever the configured countdown length. */
  function CountdownText(timeout: int, timeoutMax: int): string {
    if timeoutMax - timeout != 1 then "Game starting in " + Text.IntToString(30 - timeout) + " seconds"
    else "Game starting in a second"
  }

  /** The announcement milestones a tick value hits; at most one applies. */
  predicate IsShuffleTick(t: int) { t == SHUFFLE_TICK }
  predicate IsTenSecondTick(t: int, timeoutMax: int) { !IsShuffleTick(t) && t == timeoutMax - 10 }
  predicate IsCountdownTick(t: int, timeoutMax: int) {
    !IsShuffleTick(t) && t != timeoutMax - 10 && timeoutMax - 5 <= t < timeoutMax
  }
  predicate IsStartTick(t: int, timeoutMax: int) {
    !IsShuffleTick(t) && t != timeoutMax - 10 && !(timeoutMax - 5 <= t < timeoutMax) && t >= timeoutMax
  }

  /** The match start: sequence number up, active, start time recorded,
      countdown back to 0, every player reset with one respawn request each,
      then the start and scoreboard events. */
  function StartMatch(s: Lifecycle, players: Roster, now: int): (r: TickResult)
    ensures r.state == Lifecycle(s.game.(current := s.game.current + 1, isActive := true, start := now), 0)
    ensures r.players == ResetAll(players).0
    ensures r.events == [ServerMessage("Game starting!", Info, 5 * MS_PER_SEC)] + ResetAll(players).1
                        + [MatchStart, ScoreboardForceUpdate]
    ensures ShufflePlayers !in r.events && MatchStart in r.events
  {
    var (reset, respawns) := ResetAll(players);
    var events := [ServerMessage("Game starting!", Info, 5 * MS_PER_SEC)] + respawns
                  + [MatchStart, ScoreboardForceUpdate];
    assert events[|events| - 2] == MatchStart;
    assert forall i :: 0 <= i < |events| ==> events[i] != ShufflePlayers;
    TickResult(Lifecycle(s.game.(current := s.game.current + 1, isActive := true, start := now), 0), reset, events)
  }

  /** One second of the clock. While a match is active nothing happens;
      otherwise the countdown advances and the milestone it reaches, if any,
      is announced; at the end the match starts. */
  function OnSecondTick(s: Lifecycle, players: Roster, now: int, timeoutMax: int, countdownMs: int): (r: TickResult)
    ensures s.game.isActive ==> r == TickResult(s, players, [])
    ensures !s.game.isActive && !IsStartTick(s.timeout + 1, timeoutMax) ==>
              r.state == s.(timeout := s.timeout + 1) && r.players == players
    ensures !s.game.isActive && IsStartTick(s.timeout + 1, timeoutMax) ==>
              r == StartMatch(s, players, now)
    ensures ShufflePlayers in r.events <==> !s.game.isActive && IsShuffleTick(s.timeout + 1)
    ensures MatchStart in r.events <==> !s.game.isActive && IsStartTick(s.timeout + 1, timeoutMax)
    ensures !s.game.isActive && IsCountdownTick(s.timeout + 1, timeoutMax) ==>
              r.events == [ServerMessage(CountdownText(s.timeout + 1, timeoutMax), Alert, countdownMs)]
    ensures !s.game.isActive && IsTenSecondTick(s.timeout + 1, timeoutMax) ==>
              r.events == [ServerMessage("Game starting in 10 seconds", Alert, 4 * MS_PER_SEC)]
    ensures !s.game.isActive && !IsShuffleTick(s.timeout + 1) && !IsTenSecondTick(s.timeout + 1, timeoutMax)
            && !IsCountdownTick(s.timeout + 1, timeoutMax) && !IsStartTick(s.timeout + 1, timeoutMax) ==>
              r.events == []
  {
    if s.game.isActive then TickResult(s, players, [])
    else
      var t := s.timeout + 1;
      var s1 := s.(timeout := t);
      if t == SHUFFLE_TICK then
        TickResult(s1, players,
          [ServerMessage("Game starting in " + Text.IntToString(timeoutMax - t) + " seconds", Alert, 5 * MS_PER_SEC),
           ShufflePlayers])
      else if t == timeoutMax - 10 then
        TickResult(s1, players, [ServerMessage("Game starting in 10 seconds", Alert, 4 * MS_PER_SEC)])
      else if timeoutMax - 5 <= t < timeoutMax then
        TickResult(s1, players, [ServerMessage(CountdownText(t, timeoutMax), Alert, countdownMs)])
      else if t >= timeoutMax then
        StartMatch(s, players, now)
      else TickResult(s1, players, [])
  }

  /** The source tests the shuffle tick first, so tick 5 is always the
      shuffle announcement, even when it also meets the raw guard of the
      ten-second warning (countdown of 15), of the final countdown (countdown
      of 6 to 10) or of the start (countdown of 5 or less). The match then
      never starts on tick 5. */
  lemma ShuffleTickWins(s: Lifecycle, players: Roster, now: int, timeoutMax: int, countdownMs: int)
    requires !s.game.isActive && s.timeout + 1 == SHUFFLE_TICK
    ensures var r := OnSecondTick(s, players, now, timeoutMax, countdownMs);
            && r.state == s.(timeout := SHUFFLE_TICK) && r.players == players
            && r.events == [ServerMessage("Game starting in " + Text.IntToString(timeoutMax - SHUFFLE_TICK) + " seconds",
                                          Alert, 5 * MS_PER_SEC),
                            ShufflePlayers]
            && MatchStart !in r.events
  {
  }

  /** With the development countdown of 10, tick 5 lies inside the final
      five-second window, yet no countdown message goes out for it: the
      shuffle announcement ("5 seconds") takes its place. */
  lemma DevCountdownSkipsTickFive(s: Lifecycle, players: Roster, now: int, countdownMs: int)
    requires !s.game.isActive && s.timeout == 4
    ensures DEV_TIMEOUT_MAX - 5 <= s.timeout + 1 < DEV_TIMEOUT_MAX
    ensures var r := OnSecondTick(s, players, now, DEV_TIMEOUT_MAX, countdownMs);
            && ServerMessage(CountdownText(s.timeout + 1, DEV_TIMEOUT_MAX), Alert, countdownMs) !in r.events
            && r.events[0] == ServerMessage("Game starting in " + Text.IntToString(5) + " seconds", Alert, 5 * MS_PER_SEC)
  {
    ShuffleTickWins(s, players, now, DEV_TIMEOUT_MAX, countdownMs);
    var r := OnSecondTick(s, players, now, DEV_TIMEOUT_MAX, countdownMs);
    var countdown := ServerMessage(CountdownText(5, DEV_TIMEOUT_MAX), Alert, countdownMs);
    assert CountdownText(5, DEV_TIMEOUT_MAX) == "Game starting in " + Text.IntToString(25) + " seconds";
    assert countdown != r.events[0] by {
      assert Text.IntToString(25) == "25" && Text.IntToString(5) == "5";
      var a := "Game starting in " + "25" + " seconds";
      var b := "Game starting in " + "5" + " seconds";
      assert a[18] != b[18];
    }
  }

  /** The countdown text says "a second" exactly when one second is left;
      with the development countdown of 10 it names a number computed
      against 30: at tick 6 it announces 24 seconds instead of 4. */
  lemma CountdownTextFacts(t: int, timeoutMax: int)
    ensures CountdownText(t, timeoutMax) == "Game starting in a second" <==> timeoutMax - t == 1
    ensures CountdownText(6, DEV_TIMEOUT_MAX) == "Game starting in " + Text.IntToString(24) + " seconds"
  {
    if timeoutMax - t != 1 {
      var s := "Game starting in " + Text.IntToString(30 - t) + " seconds";
      assert s[17] != 'a' by {
        assert s[17] == Text.IntToString(30 - t)[0];
      }
    }
  }

  datatype RunResult = RunResult(state: Lifecycle, players: Roster, log: seq<seq<Event>>)

  /** `n` ticks in a row, at a fixed clock reading; `log[i]` holds the events
      of tick `i + 1`. */
  function RunTicks(s: Lifecycle, players: Roster, n: nat, now: int, timeoutMax: int, countdownMs: int): (r: RunResult)
    ensures |r.log| == n
    decreases n
  {
    if n == 0 then RunResult(s, players, [])
    else
      var before := RunTicks(s, players, n - 1, now, timeoutMax, countdownMs);
      var last := OnSecondTick(before.state, before.players, now, timeoutMax, countdownMs);
      RunResult(last.state, last.players, before.log + [last.events])
  }

  /** With the standard countdown, from an idle state at 0, the first
      `k < 30` ticks only count up; the shuffle is requested on tick 5 only
      and the match does not start. */
  lemma {:induction false} CountdownPrefix(m: Match, players: Roster, k: nat, now: int, countdownMs: int)
    requires !m.isActive && k < TIMEOUT_MAX
    ensures var r := RunTicks(Lifecycle(m, 0), players, k, now, TIMEOUT_MAX, countdownMs);
            && r.state == Lifecycle(m, k) && r.players == players
            && (forall i :: 0 <= i < k ==> (ShufflePlayers in r.log[i] <==> i + 1 == SHUFFLE_TICK))
            && (forall i :: 0 <= i < k ==> MatchStart !in r.log[i])
  {
    if k > 0 {
      CountdownPrefix(m, players, k - 1, now, countdownMs);
    }
  }

  /** After 30 ticks from an idle state at 0 the match has started: it is
      active, counted, started now, and every player has been reset. */
  lemma StartAfterThirtyTicks(m: Match, players: Roster, now: int, countdownMs: int)
    requires !m.isActive
    ensures var r := RunTicks(Lifecycle(m, 0), players, TIMEOUT_MAX, now, TIMEOUT_MAX, countdownMs);
            && r.state == Lifecycle(m.(current := m.current + 1, isActive := true, start := now), 0)
            && r.players == ResetAll(players).0
  {
    CountdownPrefix(m, players, TIMEOUT_MAX - 1, now, countdownMs);
    assert IsStartTick(TIMEOUT_MAX, TIMEOUT_MAX);
  }

  /** Over those 30 ticks the shuffle is requested on tick 5 and no other,
      and the match starts on the 30th tick and no other. */
  lemma ShuffleOnceBeforeStart(m: Match, players: Roster, now: int, countdownMs: int)
    requires !m.isActive
    ensures var r := RunTicks(Lifecycle(m, 0), players, TIMEOUT_MAX, now, TIMEOUT_MAX, countdownMs);
            && (forall i :: 0 <= i < TIMEOUT_MAX ==> (ShufflePlayers in r.log[i] <==> i + 1 == SHUFFLE_TICK))
            && (forall i :: 0 <= i < TIMEOUT_MAX ==> (MatchStart in r.log[i] <==> i + 1 == TIMEOUT_MAX))
  {
    var before := RunTicks(Lifecycle(m, 0), players, TIMEOUT_MAX - 1, now, TIMEOUT_MAX, countdownMs);
    CountdownPrefix(m, players, TIMEOUT_MAX - 1, now, countdownMs);
    var last := OnSecondTick(Lifecycle(m, TIMEOUT_MAX - 1), players, now, TIMEOUT_MAX, countdownMs);
    LastTickStarts(m, players, now, countdownMs);
    var r := RunTicks(Lifecycle(m, 0), players, TIMEOUT_MAX, now, TIMEOUT_MAX, countdownMs);
    assert r.log == before.log + [last.events];
    forall i | 0 <= i < TIMEOUT_MAX
      ensures (ShufflePlayers in r.log[i] <==> i + 1 == SHUFFLE_TICK) && (MatchStart in r.log[i] <==> i + 1 == TIMEOUT_MAX)
    {
      if i < TIMEOUT_MAX - 1 {
        assert r.log[i] == before.log[i];
      } else {
        assert r.log[i] == last.events;
      }
    }
  }

  /** The 30th tick starts the match without a shuffle. */
  lemma LastTickStarts(m: Match, players: Roster, now: int, countdownMs: int)
    requires !m.isActive
    ensures var last := OnSecondTick(Lifecycle(m, TIMEOUT_MAX - 1), players, now, TIMEOUT_MAX, countdownMs);
            ShufflePlayers !in last.events && MatchStart in last.events
  {
    assert IsStartTick(TIMEOUT_MAX, TIMEOUT_MAX) && !IsShuffleTick(TIMEOUT_MAX);
  }

  /** Living players of a team. The source reads the alive status of BLUE
      players through an optional chain; every modelled player has one. */
  function CountAlive(ps: Roster, team: TeamId): (n: nat)
    ensures n <= |ps|
    ensures n == 0 <==> forall i :: 0 <= i < |ps| ==> !(ps[i].team == team && ps[i].alive.current == ALIVE)
  {
    if |ps| == 0 then 0
    else
      (if ps[0].team == team && ps[0].alive.current == ALIVE then 1 else 0) + CountAlive(ps[1..], team)
  }

  datatype KillResult = KillResult(state: Lifecycle, events: seq<Event>, conversion: Option<PlayerId>)

  /** The winner announcement. */
  function WinnerText(infectedAlive: nat): string {
    "Team " + (if infectedAlive > 0 then "Infected" else "Survivors") + " wins!"
  }

  /** The match record once a kill has left a team without living players:
      inactive, won by RED exactly when infected remain, the sequence number
      and start time kept. */
  function Ended(s: Lifecycle, infectedAlive: nat): (s': Lifecycle)
    ensures s'.game.current == s.game.current && s'.game.start == s.game.start && s'.timeout == s.timeout
    ensures !s'.game.isActive && s'.game.winnerTeam == Some(if infectedAlive > 0 then RED else BLUE)
  {
    s.(game := s.game.(isActive := false, winnerTeam := Some(if infectedAlive > 0 then RED else BLUE)))
  }

  /** The kill handler, with parameters in the order the source declares
      them: the first is treated as the victim, the second as the enemy.
      `connected` holds the players whose main connection is open. The
      match activity is not consulted. In the infection mode an unknown
      victim stops the handler before anything happens; in other modes the
      team test short-circuits, and a match end goes as far as the two
      winner announcements before the missing victim stops it. An unknown
      enemy stops it after the victim's custom message. */
  function OnPlayerKill(s: Lifecycle, players: Roster, victimId: PlayerId, enemyId: PlayerId,
                        gameType: int, connected: set<PlayerId>): (r: KillResult)
    ensures Lookup(players, victimId).None? && gameType == INFECTION_MODE ==> r == KillResult(s, [], None)
    ensures Lookup(players, victimId).Some? || gameType != INFECTION_MODE ==>
              var survivors := CountAlive(players, BLUE);
              var infected := CountAlive(players, RED);
              var ended := survivors == 0 || infected == 0;
              var told := [ServerMessage(WinnerText(infected), Info, 3 * MS_PER_SEC), ChatServerPublic(WinnerText(infected))];
              && (ended ==> r.state == Ended(s, infected) && r.conversion.None?)
              && (ended && Lookup(players, victimId).None? ==> r.events == told)
              && (ended && Lookup(players, victimId).Some? && Lookup(players, enemyId).None? ==>
                    r.events == told + [ServerCustom(victimId, 0)])
              && (ended && Lookup(players, victimId).Some? && Lookup(players, enemyId).Some? ==>
                    r.events == told + [ServerCustom(victimId, 0), ServerCustom(enemyId, 0), MatchEnd])
              && (!ended ==> r.state == s && r.events == [])
              && (r.conversion.Some? <==>
                    !ended && gameType == INFECTION_MODE && Lookup(players, victimId).Some?
                    && Lookup(players, victimId).value.team == BLUE && victimId in connected)
              && (r.conversion.Some? ==> r.conversion.value == victimId)
    ensures MatchEnd in r.events <==>
              (CountAlive(players, BLUE) == 0 || CountAlive(players, RED) == 0)
              && Lookup(players, victimId).Some? && Lookup(players, enemyId).Some?
  {
    var victim := Lookup(players, victimId);
    if victim.None? && gameType == INFECTION_MODE then
      // the source reads the missing victim's team and throws
      KillResult(s, [], None)
    else
      var isVictimSurvivor := gameType == INFECTION_MODE && victim.value.team == BLUE;
      var survivorsAlive := CountAlive(players, BLUE);
      var infectedAlive := CountAlive(players, RED);
      if survivorsAlive == 0 || infectedAlive == 0 then
        var text := WinnerText(infectedAlive);
        var told := [ServerMessage(text, Info, 3 * MS_PER_SEC), ChatServerPublic(text)];
        if victim.None? then
          // the source reads the missing victim's id and throws here
          KillResult(Ended(s, infectedAlive), told, None)
        else match Lookup(players, enemyId)
          case None =>
            // the source dereferences the missing enemy and throws here
            KillResult(Ended(s, infectedAlive), told + [ServerCustom(victimId, 0)], None)
          case Some(_) =>
            KillResult(Ended(s, infectedAlive), told + [ServerCustom(victimId, 0), ServerCustom(enemyId, 0), MatchEnd], None)
      else if isVictimSurvivor && victimId in connected then
        KillResult(s, [], Some(victimId))
      else KillResult(s, [], None)
  }

  datatype Conversion = Conversion(players: Roster, events: seq<Event>)

  /** The delayed conversion of killed survivor `victimId` by `enemyId`, as
      it fires: the victim joins the infected team and is marked for respawn,
      and the re-team broadcast names exactly the victim. The match state is
      not re-checked. An unknown enemy or victim ends it without effect. */
  function Convert(players: Roster, victimId: PlayerId, enemyId: PlayerId): (r: Conversion)
    ensures Lookup(players, victimId).Some? && Lookup(players, enemyId).Some? ==>
              && r.players == Replace(players, Lookup(players, victimId).value.(team := RED, delayedRespawn := true))
              && |r.events| == 5 && r.events[1..4] == [PlayersUpdateTeam(victimId, RED), PlayerReteam([victimId]), PlayersRespawn(victimId)]
              && r.events == ConversionEvents(victimId, Lookup(players, enemyId).value.name + " has infected "
                                                        + Lookup(players, victimId).value.name + "!")
    ensures Lookup(players, victimId).None? || Lookup(players, enemyId).None? ==> r == Conversion(players, [])
  {
    if Lookup(players, victimId).None? || Lookup(players, enemyId).None? then Conversion(players, [])
    else
      var victim := Lookup(players, victimId).value;
      var enemy := Lookup(players, enemyId).value;
      Conversion(Replace(players, victim.(team := RED, delayedRespawn := true)),
                 ConversionEvents(victimId, enemy.name + " has infected " + victim.name + "!"))
  }

  /** The events of a conversion, announcement text first. */
  function ConversionEvents(victimId: PlayerId, text: string): (events: seq<Event>)
    ensures |events| == 5 && events[0] == ChatServerPublic(text)
    ensures events[1..4] == [PlayersUpdateTeam(victimId, RED), PlayerReteam([victimId]), PlayersRespawn(victimId)]
    ensures events[4] == ServerCustom(victimId, 0)
  {
    [ChatServerPublic(text),
     PlayersUpdateTeam(victimId, RED),
     PlayerReteam([victimId]),
     PlayersRespawn(victimId),
     ServerCustom(victimId, 0)]
  }

  /** The conversion leaves the victim infected and due to respawn, with no
      other field and no other player changed. */
  lemma ConversionEffect(players: Roster, victimId: PlayerId, enemyId: PlayerId)
    requires Lookup(players, victimId).Some? && Lookup(players, enemyId).Some?
    ensures var r := Convert(players, victimId, enemyId);
            var v := Lookup(players, victimId).value;
            && Lookup(r.players, victimId) == Some(v.(team := RED, delayedRespawn := true))
            && (forall id :: id != victimId ==> Lookup(r.players, id) == Lookup(players, id))
  {
  }

  /** The kill handler never consults the match activity: the same kill
      gives the same events, conversion and resulting match record whether
      or not a match is running, so a kill after the match has ended ends it
      again. */
  lemma KillIgnoresActivity(s: Lifecycle, players: Roster, victimId: PlayerId, enemyId: PlayerId,
                            gameType: int, connected: set<PlayerId>)
    ensures var a := OnPlayerKill(s.(game := s.game.(isActive := true)), players, victimId, enemyId, gameType, connected);
            var b := OnPlayerKill(s.(game := s.game.(isActive := false)), players, victimId, enemyId, gameType, connected);
            && a.events == b.events && a.conversion == b.conversion
            && a.state.game.winnerTeam == b.state.game.winnerTeam
            && (MatchEnd in a.events ==> !a.state.game.isActive && !b.state.game.isActive)
  {
  }
}

=== FILE: players.dfy ===
/** Player records and the server's player list.

    A player is the plain-data view of the server's player entity: only the
    components the combat, match and team systems read or write are kept. */
module Players {

  type PlayerId = int
  type TeamId = int

  /** Team identifiers of the capture-the-flag protocol, reused by the
      infection mode: BLUE are the survivors, RED the infected. */
  const BLUE: TeamId := 1
  const RED: TeamId := 2

  /** Server type identifier of the infection mode. */
  const INFECTION_MODE := 4

  /** The alive-status value of a living player. */
  const ALIVE := 0

  datatype Option<+T> = None | Some(value: T)

  /** One collision circle of a ship: centre offset and radius. */
  datatype HitCircle = HitCircle(x: int, y: int, r: int)

  datatype Upgrades = Upgrades(defense: int, energy: int)

  /** `current` is ALIVE for a living player; `isLastStateKilled` records
      that the previous life ended in a kill. */
  datatype AliveStatus = AliveStatus(current: int, isLastStateKilled: bool)

  datatype Times = Times(lastHit: int, lastStealth: int, activePlayingBlue: int, activePlayingRed: int)

  /** Damage counters. `takenTracking` is the flat kill-assist buffer:
      attacker id and share of full health, pushed as consecutive pairs. */
  datatype DamageStats = DamageStats(
    current: int,
    hits: nat,
    bots: int,
    hitsToBots: nat,
    hitsReceived: nat,
    hitsByBots: nat,
    takenTracking: seq<real>)

  datatype Kills = Kills(current: nat, carriers: nat, currentmatch: nat)

  datatype Deaths = Deaths(current: nat, withFlag: nat)

  datatype Captures = Captures(current: nat, attempts: nat, saves: nat)

  datatype Position = Position(x: int, y: int)

  datatype Player = Player(
    id: PlayerId,
    name: string,
    isBot: bool,
    spectate: bool,
    team: TeamId,
    alive: AliveStatus,
    ship: int,
    hitcircles: seq<HitCircle>,
    upgrades: Upgrades,
    energyRegen: real,
    health: real,
    shield: bool,
    stealthed: bool,
    times: Times,
    damage: DamageStats,
    kills: Kills,
    deaths: Deaths,
    captures: Captures,
    recaptures: nat,
    delayedRespawn: bool,
    position: Position)

  /** The server's player list in insertion order. */
  type Roster = seq<Player>

  predicate HasId(ps: Roster, id: PlayerId) {
    exists i :: 0 <= i < |ps| && ps[i].id == id
  }

  predicate UniqueIds(ps: Roster) {
    forall i, j :: 0 <= i < j < |ps| ==> ps[i].id != ps[j].id
  }

  /** The player with the given id, searched from the front of the list. */
  function Lookup(ps: Roster, id: PlayerId): (r: Option<Player>)
    ensures r.Some? <==> HasId(ps, id)
    ensures r.Some? ==> r.value.id == id && r.value in ps
  {
    if |ps| == 0 then None
    else if ps[0].id == id then Some(ps[0])
    else
      var r := Lookup(ps[1..], id);
      assert HasId(ps[1..], id) ==> HasId(ps, id) by {
        if HasId(ps[1..], id) {
          var i :| 0 <= i < |ps[1..]| && ps[1..][i].id == id;
          assert ps[i + 1].id == id;
        }
      }
      r
  }

  /** Writes a changed record back into the list, in place of every entry
      with the same id (the list holds each id at most once). */
  function Replace(ps: Roster, q: Player): (r: Roster)
    ensures |r| == |ps|
    ensures forall i :: 0 <= i < |ps| ==> r[i].id == ps[i].id
    ensures forall i :: 0 <= i < |ps| && ps[i].id != q.id ==> r[i] == ps[i]
    ensures Lookup(r, q.id) == if HasId(ps, q.id) then Some(q) else None
    ensures forall id :: id != q.id ==> Lookup(r, id) == Lookup(ps, id)
    ensures forall id :: HasId(r, id) <==> HasId(ps, id)
  {
    if |ps| == 0 then []
    else [if ps[0].id == q.id then q else ps[0]] + Replace(ps[1..], q)
  }
}

=== FILE: scenarios.dfy ===
/** Interplay of the combat and match handlers. */
module Scenarios {
  import opened Players
  import opened Events
  import Matches

  /** A melee kill is announced as (aggressor, victim), and the match
      handler reads its first argument as the victim. An infected rammer
      that kills a connected survivor is therefore looked up as the victim:
      being RED, nobody is converted, although the same kill announced the
      other way round converts the survivor. */
  lemma MeleeKillConvertsNobody(s: Matches.Lifecycle, players: Roster, aggressorId: PlayerId, victimId: PlayerId,
                                connected: set<PlayerId>)
    requires Lookup(players, aggressorId).Some? && Lookup(players, aggressorId).value.team == RED
    requires Lookup(players, victimId).Some? && Lookup(players, victimId).value.team == BLUE
    requires victimId in connected
    requires Matches.CountAlive(players, BLUE) > 0 && Matches.CountAlive(players, RED) > 0
    ensures Matches.OnPlayerKill(s, players, aggressorId, victimId, INFECTION_MODE, connected).conversion.None?
    ensures Matches.OnPlayerKill(s, players, victimId, aggressorId, INFECTION_MODE, connected).conversion
            == Some(victimId)
  {
  }
}

=== FILE: ship_type.dfy ===
/** Ship-type change: a player's aircraft type, collision circles and
    energy regeneration, and the repel registration of the Goliath. */
module ShipType {
  import opened Players
  import opened Events

  /** Aircraft type of the Goliath, the only ship with a repel. */
  const GOLIATH := 2

  /** Energy regeneration of an infected player, whatever its ship. */
  const INFECTED_ENERGY_REGEN: real := 0.15

  /** Ship and upgrade tables, by ship type and energy upgrade level. */
  datatype ShipTables = ShipTables(
    energyRegen: int -> real,
    energyFactor: int -> real,
    collisions: int -> seq<HitCircle>)

  /** The regeneration a player with this ship, team and energy upgrade is
      given: a flat rate for the infected (RED in the infection mode), the
      ship's rate times the upgrade factor otherwise. */
  function Regen(tables: ShipTables, gameType: int, team: TeamId, shipType: int, energyUpgrade: int): (regen: real)
    ensures gameType == INFECTION_MODE && team == RED ==> regen == 0.15
    ensures !(gameType == INFECTION_MODE && team == RED) ==>
              regen == tables.energyRegen(shipType) * tables.energyFactor(energyUpgrade)
  {
    if gameType == INFECTION_MODE && team == RED then INFECTED_ENERGY_REGEN
    else tables.energyRegen(shipType) * tables.energyFactor(energyUpgrade)
  }

  /** Sets the ship type. The repel of a previous Goliath is removed first,
      then one is added for a new Goliath, so re-selecting the Goliath
      re-registers its repel. Nothing else of the player changes. */
  function OnSetPlayerShipType(tables: ShipTables, gameType: int, p: Player, shipType: int): (r: (Player, seq<Event>))
    ensures r.0 == p.(ship := shipType, hitcircles := tables.collisions(shipType), energyRegen := r.0.energyRegen)
    ensures r.0.energyRegen == Regen(tables, gameType, p.team, shipType, p.upgrades.energy)
    ensures RepelDelete(p.id) in r.1 <==> p.ship == GOLIATH
    ensures RepelAdd(p.id) in r.1 <==> shipType == GOLIATH
    ensures forall e :: e in r.1 ==> e == RepelDelete(p.id) || e == RepelAdd(p.id)
    ensures |r.1| <= 2 && (|r.1| == 2 ==> r.1 == [RepelDelete(p.id), RepelAdd(p.id)])
  {
    var q := p.(ship := shipType,
                hitcircles := tables.collisions(shipType),
                energyRegen := Regen(tables, gameType, p.team, shipType, p.upgrades.energy));
    var removed := if p.ship == GOLIATH then [RepelDelete(p.id)] else [];
    var added := if shipType == GOLIATH then [RepelAdd(p.id)] else [];
    (q, removed + added)
  }

  /** A player whose collision circles and regeneration match its ship. */
  predicate Consistent(tables: ShipTables, gameType: int, p: Player) {
    p.hitcircles == tables.collisions(p.ship) && p.energyRegen == Regen(tables, gameType, p.team, p.ship, p.upgrades.energy)
  }

  /** Changing ship and changing back restores a consistent player, and the
      repel is added and removed equally often over the round trip. */
  lemma ChangeBackRestores(tables: ShipTables, gameType: int, p: Player, shipType: int)
    requires Consistent(tables, gameType, p)
    ensures var (q, there) := OnSetPlayerShipType(tables, gameType, p, shipType);
            var (p', back) := OnSetPlayerShipType(tables, gameType, q, p.ship);
            && Consistent(tables, gameType, q)
            && p' == p
            && (RepelAdd(p.id) in there + back <==> RepelDelete(p.id) in there + back)
  {
  }

  /** Selecting the same ship again changes nothing of the player. */
  lemma ReselectIsIdempotent(tables: ShipTables, gameType: int, p: Player, shipType: int)
    ensures var q := OnSetPlayerShipType(tables, gameType, p, shipType).0;
            OnSetPlayerShipType(tables, gameType, q, shipType).0 == q
  {
  }
}

=== FILE: text.dfy ===
/** Decimal rendering of integers, as JavaScript template strings print them. */
module Text {

  function Digit(d: int): (c: char)
    requires 0 <= d < 10
    ensures '0' <= c <= '9' && DigitValue(c) == d
  {
    ('0' as int + d) as char
  }

  /** The value of a decimal digit character. */
  function DigitValue(c: char): int
    requires '0' <= c <= '9'
  {
    c as int - '0' as int
  }

  predicate AllDigits(s: string) {
    forall i :: 0 <= i < |s| ==> '0' <= s[i] <= '9'
  }

  /** The number a string of decimal digits denotes, most significant digit
      first. */
  function DigitsValue(s: string): nat
    requires AllDigits(s)
  {
    if |s| == 0 then 0 else DigitsValue(s[..|s| - 1]) * 10 + DigitValue(s[|s| - 1])
  }

  /** The shortest decimal digits of `n`: they denote `n`, and only zero
      is written with a leading '0'. */
  function NatToString(n: nat): (s: string)
    ensures 1 <= |s| && AllDigits(s)
    ensures DigitsValue(s) == n
    ensures (s[0] == '0') <==> n == 0
    ensures n == 0 ==> s == "0"
  {
    if n < 10 then [Digit(n)]
    else
      var s := NatToString(n / 10) + [Digit(n % 10)];
      assert s[..|s| - 1] == NatToString(n / 10);
      s
  }

  /** Decimal rendering of `i`: a '-' exactly for negatives, followed by
      the shortest digits of its magnitude. */
  function IntToString(i: int): (s: string)
    ensures 1 <= |s|
    ensures (s[0] == '-') <==> i < 0
    ensures i < 0 ==> |s| >= 2 && AllDigits(s[1..]) && s[1] != '0' && DigitsValue(s[1..]) == -i
    ensures i >= 0 ==> AllDigits(s) && DigitsValue(s) == i && (s[0] == '0' <==> i == 0)
  {
    if i < 0 then
      var s := "-" + NatToString(-i);
      assert s[1..] == NatToString(-i);
      s
    else NatToString(i)
  }
}
